=== FILE: README.md ===
# event-test-harness, modelled in Dafny

The event test harness is a set of small FastAPI demo apps around an Azure
Service Bus topic and an RDF Delta patch log:

- `src/producer.py` signs an operator in with an MSAL authorization-code flow.
  It keeps flows and sessions in two process-wide dicts, checks Entra ID group
  membership, and publishes messages to a topic.
- `src/msal-producer.py` and `msalfapi.py` get a token silently, or else start
  a new flow in a single global slot. They authorize by Entra ID app roles.
- `src/app.py` and `src/consumer.py` take one message at a time off a
  subscription. An `rdf` message becomes an RDF Patch submitted to RDF Delta.
  They also show the patch log and query results on a page.

The Dafny project models the decision and formatting code that sits between
the calls into those services. Every call into MSAL, Microsoft Graph, Service
Bus or RDF Delta becomes an input, usually a function-valued field of
`Msal.Client` or a parameter holding the call's outcome. Handlers are pure
functions:

- Each takes the dicts it reads and returns the dicts it leaves behind.
- Each takes the results of its FastAPI dependencies as parameters.
- An exception that escapes a handler is the reply `Raised(exc)`. The server
  answers it with a 500. Changes made before the raise are kept, as they are
  in the process.

Modules:

| module | file | what it holds |
|---|---|---|
| `Py` | py.dfy | Option / Try / exceptions, truthiness, Python slices `s[:n]` and `s[-n:]`, secret masking |
| `Text` | text.dfy | `str.replace`, `split`/`join` on one character, `html.escape` plus newline to `<br>`, `str(int)` |
| `Web` | web.dfy | the replies a handler can give, and their status codes |
| `Msal` | msal.dfy | the provider's dicts (flow, token result) and the client as opaque functions |
| `Publish` | publish.dfy | the part of `sb_msg` the two producers share |
| `Producer` | producer.dfy | src/producer.py |
| `SilentToken` | silent_token.dfy | `get_token` and `/token` shared by src/msal-producer.py and msalfapi.py |
| `MsalProducer` | msal_producer.dfy | src/msal-producer.py |
| `Msalfapi` | msalfapi.dfy | msalfapi.py |
| `RdfPatch` | rdf_patch.dfy | `rdf_to_patch` in src/app.py and src/consumer.py |
| `Consumer` | consumer.dfy | `process_message`, `consume`, `peek`, `/log`, `/` and start-up in src/consumer.py; src/app.py has the same `process_message`, `consume`, `peek` and `/log` |

## Model

| member | source | states |
|---|---|---|
| Py.Head | src/producer.py:158 | `s[:n]` is the first min(n, len s) characters of s |
| Py.Tail | src/producer.py:158 | `s[-n:]` is the last min(n, len s) characters of s, and the whole string when n is 0 |
| Py.Mask | src/msal-producer.py:183-185 | the masked text is s's first h characters, "...", and s's last t characters, with both ends clamped to the length of s |
| Py.MaskShortSecretShownTwice | src/msal-producer.py:183 | a secret no longer than either kept end is shown in full on both sides of the ellipsis |
| Py.MaskHidesLongSecret | src/app.py:96 | a connection string longer than 37 characters shows exactly 25 + 12 of them |
| Text.ReplaceAbsent | src/producer.py:101 | replacing "http" in a text without "http" changes nothing |
| Text.UpgradeThenDowngrade | src/producer.py:101 | the "http" to "https" replacement loses nothing: replacing "https" back with "http" gives the original |
| Text.Split | src/app.py:66 | `rdf.split("\n")` has at least one piece, and no piece holds the separator |
| Text.JoinSplit | src/app.py:66 | joining the split pieces with the separator gives back the split text, so every line survives, empty ones included |
| Text.SplitJoin | src/consumer.py:172-182 | splitting a join of separator-free pieces gives back exactly those pieces |
| Text.DisplayIsCharwise | src/app.py:131 | escaping then replacing newlines equals mapping each character to its page form |
| Text.DisplaySafe | src/app.py:131 | a displayed query result has no newline, quote or apostrophe; every `<` and `>` belongs to a `<br>` |
| Text.DisplayRoundTrip | src/app.py:209 | the displayed log can be read back into exactly the log's text |
| Text.NatToDecimal | src/consumer.py:146 | a number's decimal text is canonical: non-empty, all digits, and no leading zero unless the number is 0 |
| Text.IntDecimalRoundTrip | src/consumer.py:146 | reading a sequence number back from its decimal text gives exactly that number |
| Text.CanonicalRoundTrip | src/consumer.py:146 | canonical digit text is exactly the decimal text of its own value |
| Text.IntDecimalUnique | src/consumer.py:146 | the reader accepts only text the decimal writer produces: whatever it reads is the text of the number it returns, so empty text, stray characters, leading zeros and "-0" are refused |
| Publish.Publish | src/producer.py:181-212 | the form checks come in order (namespace, then connection string); an exception while building the client escapes before the `try`; a message is sent iff the form is complete and the client was built; success is 200 with the body escaped; a ServiceBusError or ValueError from the send becomes a JSON 500 naming the class raised and its first argument (none raises IndexError), and any other exception escapes |
| Producer.GetUser | src/producer.py:73-86 | a user is returned iff the cookie id is set, a truthy session is stored under it, an account is cached for its username, and a silent token for the first account is truthy; the user is the stored entry, and the stores are only read |
| Producer.IsAuthorized | src/producer.py:89-94 | true iff there is a non-empty user dict and the group id is in the user's `groups` claim; no user or an empty one is false; a missing `groups` claim counts as no groups; a missing `id_token_claims` raises KeyError |
| Producer.RedirectUri | src/producer.py:99-103 | a truthy `local_dev` gives the fixed local address; otherwise the URI is the base URL with every "http" replaced by "https", followed by "token", and the upgrade can be undone |
| Producer.Login | src/producer.py:97-112 | a flow with "error" gives a JSON 500 and stores nothing; otherwise the flow is stored under its state, and the reply is a 307 to its auth URI; a missing `state` or `auth_uri` raises KeyError, and in the second case the flow stays stored; sessions and cookie are untouched |
| Producer.Logout | src/producer.py:115-120 | with a cookie id that has a session: exactly that session is removed, nothing else changes, and the cookie is cleared; otherwise KeyError and nothing changes |
| Producer.Token | src/producer.py:123-142 | a truthy access token is stored as the session under the form's state, and the cookie id becomes that state; a missing token or a ValueError changes nothing; flows are never touched; the reply is always 302 to "/" unless a non-ValueError exception escapes |
| Producer.Index | src/producer.py:145-163 | the page shows the user and the decision, and masks client id, secret and tenant id to their first and last nine characters |
| Producer.SbMsg | src/producer.py:166-212 | an unauthorized request gets 401 before any form check and sends nothing; then a managed identity without namespace gets 400; then a shared key without connection string gets 400; then a failure building the client escapes; the reply is 200 iff authorized, the form is complete, the client was built and the send succeeded |
| Producer.StepsKeepInv | src/producer.py:111 | assuming the provider only exchanges a code for the flow its state names, login, callback and logout keep every session keyed by a started flow, and no handler removes a flow |
| Producer.LoginCallbackLogout | src/producer.py:97-142 | login, then callback, then logout: the session id is the flow's state, the user resolves to the stored result until logout, a second logout raises KeyError, and the flow stays stored |
| Producer.LogoutRevokesAccess | src/producer.py:73-120 | after a successful logout the same request has no user, and `is_authorized` says false for every group |
| Producer.AuthorizedNeedsStoredSession | src/producer.py:73-94 | `is_authorized` says true only for a cookie id with a stored session whose `groups` claim holds the group id |
| Producer.SecureBaseUrlDoubled | src/producer.py:101 | a base URL already starting with "https" yields a redirect URI starting with "httpss" |
| Producer.PlainBaseUrlKept | src/producer.py:101 | a base URL without "http" is used unchanged, followed by "token" |
| SilentToken.GetToken | src/msal-producer.py:75-91 | a truthy silent result for the first cached account gives its access token (KeyError if it has none) and leaves the slot alone; otherwise a flow with "error" raises TypeError before it is stored; any other flow replaces the slot, and the token is None |
| SilentToken.GetTokenIntended | src/msal-producer.py:82-89 | with the flow error only logged: no silent result always stores the new flow and gives None, and TypeError never happens |
| SilentToken.GetTokenFlowErrorRaises | src/msal-producer.py:86-87 | the code as written and the intended code differ exactly when a new flow is needed and it holds "error" |
| SilentToken.TokenCallback | src/msal-producer.py:94-108 | the session slot is never written; the reply is the exchange's own exception when it raises something other than ValueError, and a 307 to "/" in every other case |
| MsalProducer.GetToken | src/msal-producer.py:75-91 | a truthy silent result leaves the slot alone and gives its access token (KeyError if it has none); otherwise a new flow for `<host_domain>/token` holding "error" raises TypeError and leaves the slot alone, and any other new flow fills the slot and the token is None |
| MsalProducer.Token | src/msal-producer.py:94-108 | the callback stores nothing; it answers with the exchange's exception when that is not a ValueError, and with a 307 to "/" otherwise |
| MsalProducer.IsAuthorized | src/msal-producer.py:136-160 | no token: false; a failed role fetch raises its exception; otherwise the answer is exactly: the user has at least one app-role id and every required scope is among them; the no-scopes branch is never taken |
| MsalProducer.AllIn | src/msal-producer.py:155-160 | the scope loop returns true iff every required scope is among the app-role ids |
| MsalProducer.IsAuthorizedIntended | src/msal-producer.py:148-150 | an authenticated user passes when no scope is required; otherwise the decision is unchanged |
| MsalProducer.IsAuthorizedNoScopesBranch | src/msal-producer.py:149 | both versions agree on the admin scope that every handler requires; with no scopes required and no roles, the code says false where the comment says true |
| MsalProducer.Index | src/msal-producer.py:163-189 | no stored flow raises AttributeError; a failed username fetch for a signed-in user raises; the reply is 401 iff a flow is stored, a token is present, the username fetch succeeds, and the user is not authorized; with a flow stored, an anonymous or authorized user gets the `producer-index.html` page, showing the fetched username, the admin role id and the host domain; the page masks the secrets to nine characters at each end |
| MsalProducer.SbMsg | src/msal-producer.py:192-236 | 401 before any form check; then Azure AD without namespace gets 400; then a shared key without connection string gets 400; then a failure building the client escapes; 200 iff authorized, complete, built and sent |
| MsalProducer.SbMsgProducersAgree | src/msal-producer.py:204-236 | on the same request the two producers send the same message or none, and answer with the same status code |
| MsalProducer.IndexAfterGetToken | src/msal-producer.py:166-172 | after `get_token` returns, the flow slot is empty only if a silent token came back and no flow was ever stored; a user sent to sign in gets the page with the new flow's link |
| MsalProducer.CallbacksAgree | src/msal-producer.py:94-108 | on the same exchange outcome this callback and the group producer's raise the same exception or both send the browser to "/" (307 here, 302 there); only the group producer keeps the token |
| Msalfapi.GetToken | msalfapi.py:38-54 | every flow it stores was started for http://localhost:8000/token; a truthy silent result leaves the slot alone and gives its access token (KeyError if it has none); otherwise a flow holding "error" raises TypeError, and any other flow fills the slot and the token is None |
| Msalfapi.Login | msalfapi.py:57-62 | with no flow stored it raises KeyError; otherwise the page holds a link to the stored flow's auth URI |
| Msalfapi.Token | msalfapi.py:65-79 | the session is never written; the reply is the exchange's exception when that is not a ValueError, and a 307 to "/" otherwise |
| Msalfapi.LoginAfterGetToken | msalfapi.py:38-62 | after `get_token` returns, `/login` raises KeyError only if a silent token came back and no flow was ever stored; a user sent to sign in gets a link to the new flow's auth URI |
| Msalfapi.RoleIds | msalfapi.py:108 | the list of `appRoleId`s has one entry per assignment, in order |
| Msalfapi.Root | msalfapi.py:102-110 | no token redirects to /login; a failed username or role fetch raises its exception; after both fetches succeed, the reply is 403 `{"error": "Unauthorized access"}` iff no assignment carries the admin role id, and otherwise the data is the fetched username and roles |
| Msalfapi.RootAgreesWithIsAuthorized | msalfapi.py:102-110 | for a signed-in user whose lookups succeed, `root` refuses with 403 exactly when the producer's `is_authorized` with the admin scope says false |
| RdfPatch.RdfToPatch | src/app.py:49-69 | the `H id` header comes first; `H prev` is present iff the latest id is truthy; `TX` follows; then one `A` row per line of the split text, in order; `TC` comes last |
| RdfPatch.HeaderRoundTrip | src/consumer.py:53-54 | a header line can be read back into the id it was written with |
| RdfPatch.PatchRoundTrip | src/consumer.py:45-65 | reading the patch back gives the new id, the previous id when it was truthy, and the message text exactly |
| Consumer.ProcessMessage | src/consumer.py:74-80 | the calls made are an "rdf" message's one submission of the patch `rdf_to_patch` builds from the body, the new id and the latest id (only when the latest id could be read), followed by the completion of the message when nothing raised before it; the run ends without an exception iff the message was completed and completion succeeded; otherwise it ends with the exception of the latest-id read, else of `create_log`, else of `complete_message` |
| Consumer.ProcessMessageCalls | src/consumer.py:74-80 | a patch is submitted iff the subject is "rdf" and the log could be read, at most once, and it is exactly the patch built from the body, the new id and the latest id; the message is completed iff nothing raised before, and completion is the last call; no other calls are made, and at most two calls in all |
| Consumer.ProcessMessagePatchReadsBack | src/consumer.py:75-78 | the submitted patch parses back to the new id, the previous id (only when the latest id is non-empty) and the message body |
| Consumer.CallsCompleteOnce | src/consumer.py:74-80 | `process_message` completes no message but its own, and that one at most once |
| Consumer.ProcessedText | src/consumer.py:146 | the reply starts "Processed message " and the rest reads back as exactly the sequence number |
| Consumer.Consume | src/consumer.py:126-151 | no message gives "No messages to consume" and just closes; otherwise the first message is processed; when processing completes, the reply is 200 naming its sequence number and the calls are the processing calls then the two closes; when processing raises, that exception escapes, the calls stop there and nothing is closed |
| Consumer.ConsumeCompletesOnlyFirst | src/app.py:186-189 | with nothing received no message is completed; otherwise only the first received message is ever completed, and at most once |
| Consumer.Peek | src/consumer.py:101-123 | "No pending messages" iff the peek returned nothing; otherwise messages.html shows exactly the peeked messages |
| Consumer.GetLog | src/consumer.py:154-165 | a failed read raises; a successful read always gives a 200 page that is safe to show and reads back into the log |
| Consumer.PeekShowsWhatConsumeTakes | src/consumer.py:101-151 | on the same pending queue, peek finds nothing exactly when consume finds nothing, and the message consume reports as processed is the first one peek lists |
| Consumer.Index | src/consumer.py:83-98 | the connection string is shown as its first 25 and last 12 characters; the other settings are shown as they are |
| Consumer.StartUp | src/consumer.py:168-184 | an empty connection string exits before serving; otherwise the logged settings read back one per line when none holds a newline |
| Consumer.EnvLogReadsBack | src/consumer.py:172-182 | splitting the logged settings on newlines gives the title and the six settings when none holds a newline |

Where the written promises of the project and its code differ, the model
follows the code:

- Flows and sessions never expire.
- A callback's `state` is not consumed when it is used: the flow stays in
  `auth_flows`, and the same state can be exchanged again.
- The session id is the flow's `state`, not a freshly generated value.
- `logout` is not idempotent. A second call raises KeyError.
- The displayed text is not free of `<` and `>`, because the `<br>` the code
  inserts is made of them. What holds is `Text.DisplaySafe` together with
  `Text.DisplayRoundTrip`.

## Left out

- MSAL internals: flow state validation, token caching and account lookup are in a library; `Msal.Client` holds them as opaque functions, and `Msal.ChecksState` names the one property of theirs the state-machine lemma assumes. The code exchange also fills MSAL's token cache, which is how a later `get_token` finds a silent token; the model does not link an exchange to later `getAccounts` or `acquireTokenSilent` answers.
- Microsoft Graph, SPARQL, Service Bus and RDF Delta calls are network I/O. Their results are inputs. The exceptions the model carries are those of the code exchange, the Graph fetches, building the Service Bus client, sending, reading the latest patch id and the log, `create_log` and `complete_message`.
- Consumer.Consume: an exception from `get_subscription_receiver`, `receive_messages`, `close` or building the client is not modelled; the received messages are an input.
- Consumer.Peek: an exception from `peek_messages` or `close` is not modelled; the peeked messages are an input.
- Jinja2 rendering and `dedent`: a page is the template name plus the values passed to it. The patch is a sequence of lines without the blank lines and indentation the template adds.
- `uuid4` is random, so the new patch id is a parameter.
- Environment and `.env` loading, `input()`, `uvicorn` start-up and logging: settings are parameters, and logging has no effect apart from the start-up settings log, which `Consumer.StartUp` returns. src/producer.py and src/consumer.py default unset variables to "". In src/app.py, src/msal-producer.py and msalfapi.py they are None; the model uses strings, except for msalfapi.py's admin role id, which `Msalfapi.Root` takes as an option.
- MsalProducer.Index: an unset CLIENT_ID, CLIENT_SECRET or TENANT_ID is None, and slicing it for the page raises TypeError; the model's settings are strings, so it renders the page instead. An unset TENANT_ID already fails at import, when the authority URL is built.
- MsalProducer.GetToken: an unset HOST_DOMAIN gives the redirect address "None/token"; the model covers it only when the caller passes the text "None" as the host domain.
- Consumer.StartUp: `logger.error` is called with an extra argument and no placeholder. Logging reports that formatting error on stderr and carries on, so the exit still happens; the report is not modelled.
- Concurrency: the handlers are async and share the global dicts without locks. Each handler is modelled as one atomic step.
- FastAPI dependency caching, form validation and cookie signing: a handler receives its dependency results and already validated form fields. In src/msal-producer.py's `/`, `get_token` is resolved twice, once for the `token` parameter and once under the `Security` scopes of `is_authorized`, so two flows are started and the second replaces the first; `MsalProducer.IndexAfterGetToken` models one call, which gives the same page only because `Msal.Client` answers the same way each time. An exception building the Service Bus client in `get_sb_client` is the `construct` input of `Publish.Publish`, raised before the `try`; its own ValueError branch is unreachable because the form field is an enum.
- Producer.Token: a callback form without a `state` field is not modelled. The source would look flows up under None and store the session under None.
- Consumer.ProcessMessage: the body is taken as already decoded text. Only its first part is read, and decoding errors are not modelled.
- The `/query`, `/update` and `/produce` handlers of src/app.py and src/producer.py, and `/query` of src/msal-producer.py, forward a request and hand back the answer. Only the `/query` display in src/app.py is modelled, through `Text.Display`.
- src/app.py's index page also shows the two SPARQL endpoints, passed through unchanged; `Consumer.Index` models the consumer's page, which lacks them.
- Consumer.StartUp: models src/consumer.py only. src/app.py asks for a missing connection string with `input()` and starts serving without the empty-string guard, exit or settings log.
- MsalProducer.IsAuthorized: an unset ADMIN_APP_ROLE_ID is None, so every handler of src/msal-producer.py asks for the scope list `[None]`; FastAPI's SecurityScopes joins its scopes into one string and raises TypeError before `is_authorized` runs, on every `/`, `/sb-msg` and `/query` request. The model's admin role id is a string, so that failure is not modelled.
- `get_username` and `get_approle_ids` in src/msal-producer.py, and `get_approles` in msalfapi.py, are Graph calls; their results are inputs.
- msaltemp.py is an interactive script that searches Graph results and prints them. It is not part of this model.

## Findings

| source | as written | input that shows it | evidently intended | confidence | as-written member | corrected member |
|---|---|---|---|---|---|---|
| src/msal-producer.py:149 | `not scopes` tests the SecurityScopes object, which is always truthy, so the "no scopes required" branch never runs | an authenticated user with no app roles, and no scopes required: the result is False | an authenticated user passes when no scope is required (the comment on line 148) | not executed | MsalProducer.IsAuthorized | MsalProducer.IsAuthorizedIntended |
| src/msal-producer.py:87 | `logging.DEBUG(...)` calls the int constant DEBUG and raises TypeError, so a flow with "error" is never stored and the request fails | no cached account, and the provider returns a flow holding "error" | log the error and carry on, storing the flow and returning None | not executed | SilentToken.GetToken | SilentToken.GetTokenIntended |

`MsalProducer.IsAuthorizedNoScopesBranch` exhibits the first input: with no
scopes and no roles, the two versions give False and True. It also proves that
the two agree on the admin scope every handler requires.
`SilentToken.GetTokenFlowErrorRaises` shows that the two versions of
`get_token` differ exactly on the second input, where one raises TypeError and
the other returns None. msalfapi.py:50 has the same call.
The handlers' wrappers `MsalProducer.GetToken` and `Msalfapi.GetToken` follow
the code as written, so a flow error raises TypeError there too; the corrected
behaviour is `SilentToken.GetTokenIntended`.

=== FILE: consumer.dfy ===
/** src/consumer.py. src/app.py has the same `process_message`, `consume`,
    `peek` and `/log` handlers; its index page and start-up differ and are
    not part of this module. A received "rdf" message becomes an RDF Patch
    appended to the RDF Delta log, the message is completed, and the handlers
    report what happened. Calls into Service Bus and RDF Delta are replaced
    by their outcomes, and the calls the code makes are recorded as effects. */
module Consumer {
  import opened Py
  import opened Web
  import Text
  import RdfPatch

  /** A received Service Bus message: its subject (None when unset), its body
      already decoded, and its sequence number. */
  datatype Message = Message(subject: Option<string>, body: string, sequenceNumber: int)

  /** What RDF Delta and the receiver do when called: the log's latest patch
      id (reading it may raise), and whether `create_log` and
      `complete_message` raise. */
  datatype Delta = Delta(latest: Try<Option<string>>, submit: Option<Exc>, complete: Option<Exc>)

  /** A call into Service Bus or RDF Delta, in the order it is made. */
  datatype Effect =
    | SubmitPatch(patch: seq<string>)
    | CompleteMessage(sequenceNumber: int)
    | CloseReceiver
    | CloseClient

  /** The calls made and the exception that ended the run, if any. */
  datatype Run = Run(effects: seq<Effect>, failure: Option<Exc>)

  datatype ConsumeResult = ConsumeResult(effects: seq<Effect>, reply: Reply<()>)

  const RDF_SUBJECT := "rdf"
  const PROCESSED := "Processed message "
  const NO_MESSAGES := "No messages to consume"
  const NO_PENDING := "No pending messages"

  /** A message gets a patch exactly when its subject is "rdf" and the log's
      latest id could be read. */
  predicate Submits(msg: Message, d: Delta)
  {
    msg.subject == Some(RDF_SUBJECT) && d.latest.Ret?
  }

  /** The message is completed unless building or submitting its patch
      raised first. */
  predicate Completes(msg: Message, d: Delta)
  {
    msg.subject != Some(RDF_SUBJECT) || (d.latest.Ret? && d.submit.None?)
  }

  /** The previous-patch id a patch built now records. */
  function PrevOf(latest: Option<string>): Option<string>
  {
    if TruthyOpt(latest) then latest else None
  }

  /** The calls `process_message` makes, in order: the patch for the message,
      submitted once when the message is "rdf" and the log's latest id could
      be read, then the completion when nothing raised before it. */
  function Calls(msg: Message, newId: string, d: Delta): seq<Effect>
  {
    (if Submits(msg, d) then [SubmitPatch(RdfPatch.RdfToPatch(msg.body, newId, d.latest.value))] else [])
    + (if Completes(msg, d) then [CompleteMessage(msg.sequenceNumber)] else [])
  }

  /** `process_message`: for an "rdf" message, build the patch from its body
      and submit it; then complete the message. An exception on the way ends
      the run, with the calls made so far kept. */
  function ProcessMessage(msg: Message, newId: string, d: Delta): (run: Run)
    ensures run.effects == Calls(msg, newId, d)
    ensures run.failure.None? <==> Completes(msg, d) && d.complete.None?
    ensures run.failure ==
      if msg.subject == Some(RDF_SUBJECT) && d.latest.Throw? then Some(d.latest.exc)
      else if Submits(msg, d) && d.submit.Some? then d.submit
      else d.complete
  {
    if msg.subject == Some(RDF_SUBJECT) then
      match d.latest
      case Throw(e) => Run([], Some(e))
      case Ret(latest) =>
        var patch := RdfPatch.RdfToPatch(msg.body, newId, latest);
        if d.submit.Some? then Run([SubmitPatch(patch)], d.submit)
        else Run([SubmitPatch(patch), CompleteMessage(msg.sequenceNumber)], d.complete)
    else
      Run([CompleteMessage(msg.sequenceNumber)], d.complete)
  }

  /** What the calls of `process_message` amount to: at most one patch is
      submitted, exactly when the message is "rdf" and the log could be read,
      and it is the patch built from the body, the new id and the latest id;
      the message is completed exactly when nothing raised before, and that
      completion is the last call; nothing else is called. */
  lemma ProcessMessageCalls(msg: Message, newId: string, d: Delta)
    ensures var effects := ProcessMessage(msg, newId, d).effects;
      && ((exists p :: SubmitPatch(p) in effects) <==> Submits(msg, d))
      && (forall e :: e in effects && e.SubmitPatch? ==>
            e.patch == RdfPatch.RdfToPatch(msg.body, newId, d.latest.value))
      && (forall i, j :: 0 <= i < j < |effects| ==> !(effects[i].SubmitPatch? && effects[j].SubmitPatch?))
      && (CompleteMessage(msg.sequenceNumber) in effects <==> Completes(msg, d))
      && (Completes(msg, d) ==> effects[|effects| - 1] == CompleteMessage(msg.sequenceNumber))
      && (forall e :: e in effects ==> e.SubmitPatch? || e == CompleteMessage(msg.sequenceNumber))
      && |effects| <= 2
  {
    var c := CompleteMessage(msg.sequenceNumber);
    var last: seq<Effect> := if Completes(msg, d) then [c] else [];
    if Submits(msg, d) {
      var patch := RdfPatch.RdfToPatch(msg.body, newId, d.latest.value);
      CallShape([SubmitPatch(patch)], last, patch, c);
    } else {
      CallShape([], last, [], c);
    }
  }

  /** Calls made of at most one submission of p, then at most one
      completion c. */
  lemma CallShape(first: seq<Effect>, last: seq<Effect>, p: seq<string>, c: Effect)
    requires first == [] || first == [SubmitPatch(p)]
    requires last == [] || last == [c]
    requires c.CompleteMessage?
    ensures var es := first + last;
      && ((exists q :: SubmitPatch(q) in es) <==> first != [])
      && (forall e :: e in es && e.SubmitPatch? ==> e.patch == p)
      && (forall i, j :: 0 <= i < j < |es| ==> !(es[i].SubmitPatch? && es[j].SubmitPatch?))
      && (c in es <==> last != [])
      && (last != [] ==> es[|es| - 1] == c)
      && (forall e :: e in es ==> e.SubmitPatch? || e == c)
      && |es| <= 2
  {
    if first != [] {
      assert SubmitPatch(p) in first + last;
    }
  }

  /** The patch `process_message` submits reads back to the new id, the
      previous id and the message body. */
  lemma ProcessMessagePatchReadsBack(msg: Message, newId: string, d: Delta)
    ensures forall e :: e in ProcessMessage(msg, newId, d).effects && e.SubmitPatch? ==>
      RdfPatch.ParsePatch(e.patch) == Some(RdfPatch.Parsed(newId, PrevOf(d.latest.value), msg.body))
  {
    if Submits(msg, d) {
      RdfPatch.PatchRoundTrip(msg.body, newId, d.latest.value);
    }
  }

  /** The reply text naming a processed message. */
  function ProcessedText(sequenceNumber: int): (t: string)
    ensures Text.StartsWith(t, PROCESSED)
    ensures Text.ParseInt(t[|PROCESSED|..]) == Some(sequenceNumber)
  {
    var digits := Text.IntToDecimal(sequenceNumber);
    Text.IntDecimalRoundTrip(sequenceNumber);
    assert (PROCESSED + digits)[|PROCESSED|..] == digits;
    PROCESSED + digits
  }

  /** `POST /consume`: receive at most one message and process only the first
      one received. The receiver and the client are closed only when nothing
      raised; an exception escapes as a 500 and leaves them open. */
  function Consume(received: seq<Message>, newId: string, d: Delta): (r: ConsumeResult)
    ensures |received| == 0 <==> r.reply == Html(200, NO_MESSAGES)
    ensures |received| == 0 ==> r.effects == [CloseReceiver, CloseClient]
    ensures Status(r.reply) == 200 <==>
      |received| == 0 || (Completes(received[0], d) && d.complete.None?)
    ensures r.reply.Html? ==> r.reply.status == 200 && |r.effects| >= 2 && r.effects[|r.effects| - 2..] == [CloseReceiver, CloseClient]
    ensures r.reply.Raised? ==> CloseReceiver !in r.effects && CloseClient !in r.effects
    ensures |received| > 0 && r.reply.Html? ==>
      && Text.StartsWith(r.reply.content, PROCESSED)
      && Text.ParseInt(r.reply.content[|PROCESSED|..]) == Some(received[0].sequenceNumber)
    ensures |received| > 0 && Completes(received[0], d) && d.complete.None? ==>
      && r.reply.Html?
      && r.effects == ProcessMessage(received[0], newId, d).effects + [CloseReceiver, CloseClient]
    ensures |received| > 0 && ProcessMessage(received[0], newId, d).failure.Some? ==>
      && r.reply == Raised(ProcessMessage(received[0], newId, d).failure.value)
      && r.effects == ProcessMessage(received[0], newId, d).effects
  {
    if |received| > 0 then
      var msg := received[0];
      var run := ProcessMessage(msg, newId, d);
      match run.failure
      case Some(e) => ConsumeResult(run.effects, Raised(e))
      case None =>
        var text := ProcessedText(msg.sequenceNumber);
        assert text[0] == 'P';
        ConsumeResult(run.effects + [CloseReceiver, CloseClient], Html(200, text))
    else
      ConsumeResult([CloseReceiver, CloseClient], Html(200, NO_MESSAGES))
  }

  /** Consuming touches one message at most: the only message completed is
      the first one received, and it is completed at most once. */
  lemma ConsumeCompletesOnlyFirst(received: seq<Message>, newId: string, d: Delta)
    ensures |received| == 0 ==>
      forall e :: e in Consume(received, newId, d).effects ==> !e.CompleteMessage?
    ensures |received| > 0 ==>
      CompletesOnly(Consume(received, newId, d).effects, CompleteMessage(received[0].sequenceNumber))
  {
    if |received| > 0 {
      var msg := received[0];
      var run := ProcessMessage(msg, newId, d);
      var tail: seq<Effect> := if run.failure.None? then [CloseReceiver, CloseClient] else [];
      assert Consume(received, newId, d).effects == run.effects + tail;
      CallsCompleteOnce(msg, newId, d);
      OneCompletionAppended(run.effects, tail, CompleteMessage(msg.sequenceNumber));
    }
  }

  /** A sequence of calls completes only message c, and at most once. */
  predicate CompletesOnly(es: seq<Effect>, c: Effect)
  {
    && (forall e :: e in es && e.CompleteMessage? ==> e == c)
    && (forall i, j :: 0 <= i < j < |es| ==> !(es[i].CompleteMessage? && es[j].CompleteMessage?))
  }

  /** `process_message` completes only its own message, at most once. */
  lemma CallsCompleteOnce(msg: Message, newId: string, d: Delta)
    ensures CompletesOnly(Calls(msg, newId, d), CompleteMessage(msg.sequenceNumber))
  {
    var c := CompleteMessage(msg.sequenceNumber);
    var es := Calls(msg, newId, d);
    if Submits(msg, d) {
      var p := SubmitPatch(RdfPatch.RdfToPatch(msg.body, newId, d.latest.value));
      assert es == [p, c] || es == [p];
    } else {
      assert es == [c] || es == [];
    }
  }

  /** Appending calls that complete nothing keeps CompletesOnly. */
  lemma OneCompletionAppended(es: seq<Effect>, tail: seq<Effect>, c: Effect)
    requires CompletesOnly(es, c)
    requires forall e :: e in tail ==> !e.CompleteMessage?
    ensures CompletesOnly(es + tail, c)
  {
    var all := es + tail;
    forall i, j | 0 <= i < j < |all| && all[i].CompleteMessage?
      ensures !all[j].CompleteMessage?
    {
      assert all[i] == es[i];
      if j < |es| {
        assert all[j] == es[j];
      } else {
        assert all[j] == tail[j - |es|];
      }
    }
  }

  /** `POST /peek`: the peeked messages go to messages.html, or the reply says
      there are none. */
  function Peek(peeked: seq<Message>): (r: Reply<seq<Message>>)
    ensures |peeked| == 0 <==> r == Html(200, NO_PENDING)
    ensures |peeked| > 0 ==> r == Render("messages.html", peeked)
    ensures r.Render? || r.Html?
  {
    if |peeked| > 0 then Render("messages.html", peeked) else Html(200, NO_PENDING)
  }

  /** `POST /log`: the patch log, escaped and with `<br>` for each newline.
      Reading the log may raise. */
  function GetLog(log: Try<string>): (r: Reply<()>)
    ensures log.Throw? <==> r.Raised?
    ensures log.Ret? ==> r.Html?
    ensures r.Html? ==>
      && r.status == 200
      && Text.SafeForPage(r.content)
      && Text.Undisplay(r.content) == log.value
  {
    match log
    case Throw(e) => Raised(e)
    case Ret(text) =>
      Text.DisplaySafe(text);
      Text.DisplayRoundTrip(text);
      Html(200, Text.Display(text))
  }

  /** Peeking and consuming the same pending queue agree: with at least one
      message asked for, peek finds nothing exactly when consume finds
      nothing, and the message consume reports as processed is the first one
      peek lists. */
  lemma PeekShowsWhatConsumeTakes(pending: seq<Message>, count: nat, newId: string, d: Delta)
    ensures count >= 1 ==>
      (Peek(pending[..Min(count, |pending|)]) == Html(200, NO_PENDING) <==>
       Consume(pending[..Min(1, |pending|)], newId, d).reply == Html(200, NO_MESSAGES))
    ensures count >= 1 && |pending| > 0 && Completes(pending[0], d) && d.complete.None? ==>
      var shown := Peek(pending[..Min(count, |pending|)]);
      var r := Consume(pending[..Min(1, |pending|)], newId, d);
      && shown.Render?
      && Text.ParseInt(r.reply.content[|PROCESSED|..]) == Some(shown.view[0].sequenceNumber)
  {
    if count >= 1 && |pending| > 0 {
      var received := pending[..1];
      assert received[0] == pending[0];
      assert pending[..Min(count, |pending|)][0] == pending[0];
    }
  }

  /** The environment the consumer reads; unset variables are "". */
  datatype Env = Env(
    topic: string,
    endpoint: string,
    subscription: string,
    connStr: string,
    rdfEndpoint: string,
    datasource: string)

  /** The view handed to index.html. */
  datatype IndexView = IndexView(
    endpoint: string,
    topic: string,
    subscription: string,
    connStr: string,
    rdfEndpoint: string,
    datasource: string)

  /** `GET /`: the settings, with the connection string cut to its first 25
      and last 12 characters. */
  function Index(env: Env): (r: Reply<IndexView>)
    ensures r.Render? && r.template == "index.html"
    ensures ShowsOnlyEnds(r.view.connStr, env.connStr, 25, 12)
    ensures r.view.endpoint == env.endpoint && r.view.topic == env.topic
    ensures r.view.subscription == env.subscription
    ensures r.view.rdfEndpoint == env.rdfEndpoint && r.view.datasource == env.datasource
  {
    Render("index.html", IndexView(env.endpoint, env.topic, env.subscription,
      Mask(env.connStr, 25, 12), env.rdfEndpoint, env.datasource))
  }

  /** How running the module as a script ends: it exits at once, or it logs
      the settings and starts serving. */
  datatype Launch = Exited | Serving(envLog: string)

  function EnvLines(env: Env): seq<string>
  {
    ["ENV VARS", env.topic, env.endpoint, env.subscription, env.connStr, env.rdfEndpoint, env.datasource]
  }

  /** The start-up guard: an empty connection string exits before the server
      starts. Otherwise the logged settings are one per line after a title,
      and splitting the log on newlines gives them back when none of them
      holds a newline. */
  function StartUp(env: Env): (r: Launch)
    ensures r.Exited? <==> env.connStr == ""
    ensures r.Serving? && (forall i :: 0 <= i < |EnvLines(env)| ==> '\n' !in EnvLines(env)[i]) ==>
      Text.Split(r.envLog, '\n') == EnvLines(env)
  {
    if !Truthy(env.connStr) then Exited
    else
      EnvLogReadsBack(env);
      Serving(Text.Join(EnvLines(env), '\n'))
  }

  /** The logged settings read back line by line when none holds a newline. */
  lemma EnvLogReadsBack(env: Env)
    ensures (forall i :: 0 <= i < |EnvLines(env)| ==> '\n' !in EnvLines(env)[i]) ==>
      Text.Split(Text.Join(EnvLines(env), '\n'), '\n') == EnvLines(env)
  {
    if forall i :: 0 <= i < |EnvLines(env)| ==> '\n' !in EnvLines(env)[i] {
      Text.SplitJoin(EnvLines(env), '\n');
    }
  }
}

=== FILE: msal.dfy ===
/** The identity-provider client (MSAL's ConfidentialClientApplication) as the
    handlers see it: the dictionaries it returns, reduced to the keys the
    handlers read, and its four calls as opaque functions. */
module Msal {
  import opened Py

  /** The dict returned by initiate_auth_code_flow. Each field is present
      exactly when the dict holds that key. */
  datatype Flow = Flow(state: Option<string>, authUri: Option<string>, error: Option<string>)
  {
    /** `"error" in flow` */
    predicate HasError()
    {
      error.Some?
    }
  }

  /** The `id_token_claims` dict of a token result. */
  datatype Claims = Claims(groups: Option<seq<string>>)

  /** A token result dict, as returned by acquire_token_by_auth_code_flow and
      acquire_token_silent. `otherKeys` records whether the dict holds keys
      besides the four the handlers read. */
  datatype TokenResult = TokenResult(
    accessToken: Option<string>,
    error: Option<string>,
    preferredUsername: Option<string>,
    idTokenClaims: Option<Claims>,
    otherKeys: bool)
  {
    /** A dict is truthy when it is non-empty. */
    predicate Truthy()
    {
      accessToken.Some? || error.Some? || preferredUsername.Some? || idTokenClaims.Some? || otherKeys
    }
  }

  /** A `None`-or-dict result is truthy when it is a non-empty dict. */
  predicate TruthyResult(r: Option<TokenResult>)
  {
    r.Some? && r.value.Truthy()
  }

  /** A cached account. */
  datatype Account = Account(username: string, homeAccountId: string)

  /** What acquire_token_by_auth_code_flow does: return a result dict or raise. */
  datatype Exchange = Returned(result: TokenResult) | Failed(exc: Exc)

  /** The provider client. Its token cache, state validation and network round
      trips are not part of this model: each call is an arbitrary function. */
  datatype Client = Client(
    getAccounts: Option<string> -> seq<Account>,                         // get_accounts(username)
    acquireTokenSilent: (seq<string>, Account) -> Option<TokenResult>,   // acquire_token_silent(scopes, account)
    initiateAuthCodeFlow: (seq<string>, string) -> Flow,                 // initiate_auth_code_flow(scopes, redirect_uri)
    acquireTokenByAuthCodeFlow: (Option<Flow>, map<string, string>) -> Exchange)

  /** An exchange that yields a result carrying an access token. */
  predicate Exchanged(e: Exchange)
  {
    e.Returned? && e.result.accessToken.Some?
  }

  /** The provider's own check on the callback: a code exchange only yields an
      access token for a stored flow whose `state` is the one the callback
      carries. The handlers rely on this but do not check it themselves. */
  ghost predicate ChecksState(c: Client)
  {
    forall f: Option<Flow>, q: map<string, string> ::
      Exchanged(c.acquireTokenByAuthCodeFlow(f, q)) ==>
        f.Some? && "state" in q && f.value.state == Some(q["state"])
  }
}

=== FILE: msal_producer.dfy ===
/** src/msal-producer.py: the producer that authorizes by app roles. A token
    comes from `get_token` (the silent token or a new flow, see SilentToken);
    the app-role ids come from Microsoft Graph; the required scopes are app-role
    ids, and every protected handler requires the admin role. */
module MsalProducer {
  import opened Py
  import opened Web
  import opened Msal
  import SilentToken
  import Publish
  import Producer

  /** The environment. Unset variables are None in the source; here they are
      plain strings. */
  datatype Config = Config(
    clientId: string,
    clientSecret: string,
    tenantId: string,
    adminAppRoleId: string,
    hostDomain: string)

  /** FastAPI's SecurityScopes: the required scopes (app-role ids) as a list
      of strings. The role ids they are compared with may be None. */
  datatype SecurityScopes = SecurityScopes(scopes: seq<string>)

  /** Truthiness of a SecurityScopes object. The class defines neither
      `__bool__` nor `__len__`, so every instance is truthy, whatever its list
      holds. */
  predicate ObjectTruthy(o: SecurityScopes)
  {
    true
  }

  /** The view handed to producer-index.html. */
  datatype IndexView = IndexView(
    authenticated: bool,
    authUri: Option<string>,
    username: Option<string>,
    clientId: string,
    clientSecret: string,
    tenantId: string,
    adminAppRoleId: string,
    hostDomain: string)

  const UNAUTHORIZED := "error: Unauthorized access"
  const NAMESPACE_MISSING := "Namespace required for Azure AD authentication"
  const VARIANT := Publish.Variant("AAD", NAMESPACE_MISSING)

  /** The scopes every protected handler asks for. */
  function AdminScopes(cfg: Config): SecurityScopes
  {
    SecurityScopes([cfg.adminAppRoleId])
  }

  /** Every required scope is among the granted ids, as sets. */
  predicate Granted(required: seq<string>, ids: seq<Option<string>>)
  {
    (set x | x in required :: Some(x)) <= (set y | y in ids)
  }

  /** `get_token` with its redirect address `<host_domain>/token`. */
  function GetToken(s: SilentToken.Session, client: Client, cfg: Config): (r: (SilentToken.Session, Try<Option<string>>))
    ensures TruthyResult(SilentToken.SilentResult(client)) ==>
      && r.0 == s
      && r.1 == (if SilentToken.SilentResult(client).value.accessToken.Some?
                 then Ret(SilentToken.SilentResult(client).value.accessToken) else Throw(KeyError))
    ensures !TruthyResult(SilentToken.SilentResult(client)) ==>
      var flow := client.initiateAuthCodeFlow(SilentToken.SCOPES, cfg.hostDomain + "/token");
      && (flow.HasError() ==> r == (s, Throw(TypeError)))
      && (!flow.HasError() ==> r == (SilentToken.Session(Some(flow)), Ret(None)))
  {
    SilentToken.GetToken(s, client, cfg.hostDomain + "/token")
  }

  /** `GET /token`. */
  function Token(s: SilentToken.Session, client: Client, query: map<string, string>): (r: (SilentToken.Session, Reply<()>))
    ensures r.0 == s
    ensures var e := client.acquireTokenByAuthCodeFlow(s.authFlow, query);
      r.1 == if e.Failed? && e.exc != ValueError then Raised(e.exc) else Redirect(TEMPORARY_REDIRECT, "/")
  {
    SilentToken.TokenCallback(s, client, query)
  }

  /** The two `/token` callbacks on the same exchange outcome: both let the
      same non-ValueError exception escape and otherwise send the browser to
      "/", this one with 307 and the group producer with 302; only the group
      producer keeps the token it got, this one leaves its session as it was. */
  lemma CallbacksAgree(s: SilentToken.Session, st: Producer.State, cookie: Producer.Cookie, client: Client,
                       form: Producer.CallbackForm)
    requires client.acquireTokenByAuthCodeFlow(s.authFlow, form.Dict()) ==
             client.acquireTokenByAuthCodeFlow(Producer.Get(st.authFlows, form.state), form.Dict())
    ensures var a := Token(s, client, form.Dict()).1;
      var b := Producer.Token(st, cookie, client, form).reply;
      && (a.Raised? <==> b.Raised?)
      && (a.Raised? ==> a == b)
      && (a.Redirect? ==> a == Redirect(TEMPORARY_REDIRECT, "/") && b == Redirect(FOUND, "/"))
    ensures var e := client.acquireTokenByAuthCodeFlow(s.authFlow, form.Dict());
      e.Returned? && TruthyOpt(e.result.accessToken) ==>
        && Token(s, client, form.Dict()).0 == s
        && Producer.Token(st, cookie, client, form).st.sessions == st.sessions[form.state := e.result]
  {
  }

  /** `is_authorized` as written. No token: false. The "no scopes required"
      branch tests the SecurityScopes object, which is always truthy, so it is
      never taken. Then the user's app-role ids are fetched (a failed fetch
      raises); none at all: false; otherwise true exactly when every required
      scope is among them. */
  function IsAuthorized(scopes: SecurityScopes, token: Option<string>, roleIds: string -> Try<seq<Option<string>>>): (r: Try<bool>)
    ensures !TruthyOpt(token) ==> r == Ret(false)
    ensures TruthyOpt(token) && roleIds(token.value).Throw? ==> r == Throw(roleIds(token.value).exc)
    ensures TruthyOpt(token) && roleIds(token.value).Ret? ==>
      r == Ret(|roleIds(token.value).value| > 0 && Granted(scopes.scopes, roleIds(token.value).value))
  {
    if !TruthyOpt(token) then Ret(false)
    else if !ObjectTruthy(scopes) then Ret(true)
    else
      match roleIds(token.value)
      case Throw(e) => Throw(e)
      case Ret(ids) =>
        if |ids| == 0 then Ret(false)
        else Ret(AllIn(scopes.scopes, ids))
  }

  /** The `for scope in scopes.scopes` loop: false at the first scope missing
      from ids, true when none is. */
  function AllIn(required: seq<string>, ids: seq<Option<string>>): (b: bool)
    ensures b <==> Granted(required, ids)
    decreases |required|
  {
    if |required| == 0 then true
    else if Some(required[0]) !in ids then
      var want, have := (set x | x in required :: Some(x)), (set y | y in ids);
      assert Some(required[0]) in want && Some(required[0]) !in have;
      assert !(want <= have);
      false
    else
      var rest := AllIn(required[1..], ids);
      assert (set x | x in required :: Some(x)) == {Some(required[0])} + (set x | x in required[1..] :: Some(x));
      rest
  }

  /** `is_authorized` as the comment on its second test intends: an
      authenticated user passes when no scope is required. */
  function IsAuthorizedIntended(scopes: SecurityScopes, token: Option<string>, roleIds: string -> Try<seq<Option<string>>>): (r: Try<bool>)
    ensures !TruthyOpt(token) ==> r == Ret(false)
    ensures TruthyOpt(token) && |scopes.scopes| == 0 ==> r == Ret(true)
    ensures TruthyOpt(token) && |scopes.scopes| > 0 && roleIds(token.value).Throw? ==> r == Throw(roleIds(token.value).exc)
    ensures TruthyOpt(token) && |scopes.scopes| > 0 && roleIds(token.value).Ret? ==>
      r == Ret(|roleIds(token.value).value| > 0 && Granted(scopes.scopes, roleIds(token.value).value))
  {
    if !TruthyOpt(token) then Ret(false)
    else if |scopes.scopes| == 0 then Ret(true)
    else
      match roleIds(token.value)
      case Throw(e) => Throw(e)
      case Ret(ids) =>
        if |ids| == 0 then Ret(false)
        else Ret(AllIn(scopes.scopes, ids))
  }

  /** The two versions agree whenever some scope is required, which is how
      every handler calls it; they differ for a signed-in user without app
      roles when none is. */
  lemma IsAuthorizedNoScopesBranch(token: Option<string>, roleIds: string -> Try<seq<Option<string>>>, cfg: Config)
    ensures IsAuthorized(AdminScopes(cfg), token, roleIds) == IsAuthorizedIntended(AdminScopes(cfg), token, roleIds)
    ensures roleIds("t") == Ret([]) ==>
      && IsAuthorized(SecurityScopes([]), Some("t"), roleIds) == Ret(false)
      && IsAuthorizedIntended(SecurityScopes([]), Some("t"), roleIds) == Ret(true)
  {
  }

  /** `GET /`. The stored flow's auth URI is read first (no flow stored raises
      AttributeError), then the username is fetched for a signed-in user (a
      failed fetch raises). A signed-in user who is not authorized gets 401;
      everyone else gets the page, which masks the client id, secret and
      tenant id to nine characters at each end. */
  function Index(s: SilentToken.Session, cfg: Config, token: Option<string>, authorized: bool,
                 getUsername: string -> Try<Option<string>>): (r: Reply<IndexView>)
    ensures s.authFlow.None? ==> r == Raised(AttributeError)
    ensures Status(r) == 401 <==>
      s.authFlow.Some? && TruthyOpt(token) && getUsername(token.value).Ret? && !authorized
    ensures r.Render? ==>
      && r.template == "producer-index.html"
      && r.view.authenticated == TruthyOpt(token)
      && (TruthyOpt(token) ==> authorized)
      && r.view.authUri == s.authFlow.value.authUri
      && ShowsOnlyEnds(r.view.clientSecret, cfg.clientSecret, 9, 9)
      && ShowsOnlyEnds(r.view.clientId, cfg.clientId, 9, 9)
      && ShowsOnlyEnds(r.view.tenantId, cfg.tenantId, 9, 9)
      && r.view.adminAppRoleId == cfg.adminAppRoleId && r.view.hostDomain == cfg.hostDomain
    ensures r.Raised? || r.Render? || r == Html(401, UNAUTHORIZED)
    ensures s.authFlow.Some? && TruthyOpt(token) && getUsername(token.value).Throw? ==>
      r == Raised(getUsername(token.value).exc)
    ensures s.authFlow.Some? && (!TruthyOpt(token) || (getUsername(token.value).Ret? && authorized)) ==>
      && r.Render?
      && r.view.username == (if TruthyOpt(token) then getUsername(token.value).value else None)
  {
    var authenticated := TruthyOpt(token);
    match s.authFlow
    case None => Raised(AttributeError)
    case Some(flow) =>
      var username := if !TruthyOpt(token) then Ret(None) else getUsername(token.value);
      match username
      case Throw(e) => Raised(e)
      case Ret(name) =>
        if authenticated && !authorized then Html(401, UNAUTHORIZED)
        else Render("producer-index.html", IndexView(
          authenticated, flow.authUri, name,
          Mask(cfg.clientId, 9, 9), Mask(cfg.clientSecret, 9, 9), Mask(cfg.tenantId, 9, 9),
          cfg.adminAppRoleId, cfg.hostDomain))
  }

  /** `POST /sb-msg`: authorization first, then the form checks, then the send. */
  function SbMsg(authorized: bool, form: Publish.Form, construct: Option<Exc>, send: Publish.Send): (o: Publish.Outcome)
    ensures o.attempted.Some? <==> authorized && Publish.Complete(form) && construct.None?
    ensures !authorized ==> o == Publish.Outcome(None, Html(401, UNAUTHORIZED))
    ensures authorized && form.auth == Publish.Identity && !Truthy(form.namespace) ==>
              o.reply == Html(400, NAMESPACE_MISSING)
    ensures authorized && form.auth == Publish.SharedKey && !Truthy(form.connStr) ==>
              o.reply == Html(400, Publish.CONN_STR_MISSING)
    ensures authorized && Publish.Complete(form) && construct.Some? ==> o.reply == Raised(construct.value)
    ensures Status(o.reply) == 200 <==>
      authorized && Publish.Complete(form) && construct.None? && send == Publish.Sent
  {
    if !authorized then Publish.Outcome(None, Html(401, UNAUTHORIZED))
    else Publish.Publish(form, construct, send, VARIANT)
  }

  /** The two producers take the same `/sb-msg` decision on the same request:
      they send the same message or none, and answer with the same status;
      only the texts and the name of method "1" differ. */
  lemma {:induction false} SbMsgProducersAgree(authorized: bool, form: Publish.Form, construct: Option<Exc>, send: Publish.Send)
    ensures SbMsg(authorized, form, construct, send).attempted == Producer.SbMsg(authorized, form, construct, send).attempted
    ensures Status(SbMsg(authorized, form, construct, send).reply) == Status(Producer.SbMsg(authorized, form, construct, send).reply)
  {
    if authorized && Publish.Complete(form) && construct.None? && send.SendFailed? && Publish.Caught(send.exc) {
      var f := Publish.FailureReply(send.typeName, send.firstArg);
      assert SbMsg(authorized, form, construct, send).reply == f;
      assert Producer.SbMsg(authorized, form, construct, send).reply == f;
    }
  }

  /** What `GET /` sees after its `get_token` dependency returned: the slot
      is empty only when a silent token came back and no flow was ever
      stored, which is the one way the page raises AttributeError; a user
      sent to sign in sees the page with the new flow's link. */
  lemma IndexAfterGetToken(s: SilentToken.Session, client: Client, cfg: Config, authorized: bool,
                           getUsername: string -> Try<Option<string>>)
    ensures var g := GetToken(s, client, cfg);
      g.1.Ret? ==> (g.0.authFlow.None? <==> s.authFlow.None? && TruthyResult(SilentToken.SilentResult(client)))
    ensures var g := GetToken(s, client, cfg);
      g.1 == Ret(None) ==>
        var r := Index(g.0, cfg, None, authorized, getUsername);
        && r.Render?
        && !r.view.authenticated
        && r.view.authUri == client.initiateAuthCodeFlow(SilentToken.SCOPES, cfg.hostDomain + "/token").authUri
  {
  }
}

=== FILE: msalfapi.dfy ===
/** msalfapi.py: a minimal app that signs in through the shared silent-token
    logic with a fixed local callback address, shows a login link for the
    stored flow, and lets only holders of the admin app role see their
    username and role assignments. */
module Msalfapi {
  import opened Py
  import opened Web
  import opened Msal
  import SilentToken
  import MsalProducer
  import Text

  const REDIRECT_URI := "http://localhost:8000/token"

  /** One entry of the user's `appRoleAssignments`, reduced to the key the
      check reads. */
  datatype Assignment = Assignment(appRoleId: Option<string>)

  /** The dict `root` returns to a user holding the admin role. */
  datatype RootBody = RootBody(username: Option<string>, approles: seq<Assignment>)

  /** `get_token` with the fixed callback address: every flow it stores was
      started for http://localhost:8000/token. */
  function GetToken(s: SilentToken.Session, client: Client): (r: (SilentToken.Session, Try<Option<string>>))
    ensures TruthyResult(SilentToken.SilentResult(client)) ==>
      && r.0 == s
      && r.1 == (if SilentToken.SilentResult(client).value.accessToken.Some?
                 then Ret(SilentToken.SilentResult(client).value.accessToken) else Throw(KeyError))
    ensures !TruthyResult(SilentToken.SilentResult(client)) ==>
      var flow := client.initiateAuthCodeFlow(SilentToken.SCOPES, REDIRECT_URI);
      && (flow.HasError() ==> r == (s, Throw(TypeError)))
      && (!flow.HasError() ==> r == (SilentToken.Session(Some(flow)), Ret(None)))
    ensures r.0 != s ==> r.0.authFlow == Some(client.initiateAuthCodeFlow(SilentToken.SCOPES, REDIRECT_URI))
  {
    SilentToken.GetToken(s, client, REDIRECT_URI)
  }

  /** `GET /login`: a page with one link to the stored flow's auth URI
      (an absent `auth_uri` prints as "None"). With no flow stored,
      `session['auth_flow']` raises KeyError. */
  function Login(s: SilentToken.Session): (r: Reply<()>)
    ensures s.authFlow.None? <==> r == Raised(KeyError)
    ensures s.authFlow.Some? ==>
      && r.Html? && r.status == 200
      && Text.Contains(r.content, "<a href=\"" + Format(s.authFlow.value.authUri) + "\">Login</a>")
  {
    match s.authFlow
    case None => Raised(KeyError)
    case Some(flow) =>
      var link := "<a href=\"" + Format(flow.authUri) + "\">Login</a>";
      var content := "\n    " + link + "\n    ";
      Text.ContainsMiddle("\n    ", link, "\n    ");
      Html(200, content)
  }

  /** `GET /token`: always back to "/" unless the exchange raises something
      other than ValueError; the session is never written. */
  function Token(s: SilentToken.Session, client: Client, query: map<string, string>): (r: (SilentToken.Session, Reply<()>))
    ensures r.0 == s
    ensures var e := client.acquireTokenByAuthCodeFlow(s.authFlow, query);
      r.1 == if e.Failed? && e.exc != ValueError then Raised(e.exc) else Redirect(TEMPORARY_REDIRECT, "/")
  {
    SilentToken.TokenCallback(s, client, query)
  }

  /** What `GET /login` sees after `get_token` ran: the slot is empty, and
      the page raises KeyError, only when a silent token came back and no
      flow was ever stored; a user sent to sign in gets the new flow's link. */
  lemma LoginAfterGetToken(s: SilentToken.Session, client: Client)
    ensures var g := GetToken(s, client);
      g.1.Ret? ==> (Login(g.0) == Raised(KeyError) <==> s.authFlow.None? && TruthyResult(SilentToken.SilentResult(client)))
    ensures var g := GetToken(s, client);
      g.1 == Ret(None) ==>
        Text.Contains(Login(g.0).content,
          "<a href=\"" + Format(client.initiateAuthCodeFlow(SilentToken.SCOPES, REDIRECT_URI).authUri) + "\">Login</a>")
  {
  }

  /** The `appRoleId` of each assignment, in order. */
  function RoleIds(roles: seq<Assignment>): (ids: seq<Option<string>>)
    ensures |ids| == |roles|
    ensures forall i :: 0 <= i < |roles| ==> ids[i] == roles[i].appRoleId
  {
    seq(|roles|, i requires 0 <= i < |roles| => roles[i].appRoleId)
  }

  /** `GET /`: no token sends the browser to /login; otherwise the username
      and the role assignments are fetched (either fetch may raise), and the
      answer is 403 unless some assignment carries the admin role id. */
  function Root(token: Option<string>, adminAppRoleId: Option<string>,
                getUsername: string -> Try<Option<string>>,
                getAppRoles: string -> Try<seq<Assignment>>): (r: Reply<RootBody>)
    ensures !TruthyOpt(token) <==> r == Redirect(TEMPORARY_REDIRECT, "/login")
    ensures Status(r) == 403 <==>
      && TruthyOpt(token)
      && getUsername(token.value).Ret?
      && getAppRoles(token.value).Ret?
      && (forall a :: a in getAppRoles(token.value).value ==> a.appRoleId != adminAppRoleId)
    ensures Status(r) == 403 ==> r == JsonReply(403, ErrorJson(JStr("Unauthorized access")))
    ensures r.Data? ==>
      && TruthyOpt(token)
      && getUsername(token.value).Ret?
      && getAppRoles(token.value).Ret?
      && Assignment(adminAppRoleId) in getAppRoles(token.value).value
      && r.value == RootBody(getUsername(token.value).value, getAppRoles(token.value).value)
    ensures TruthyOpt(token) && getUsername(token.value).Ret? && getAppRoles(token.value).Ret?
            && Assignment(adminAppRoleId) in getAppRoles(token.value).value ==>
      r == Data(RootBody(getUsername(token.value).value, getAppRoles(token.value).value))
    ensures TruthyOpt(token) && getUsername(token.value).Throw? ==> r == Raised(getUsername(token.value).exc)
    ensures TruthyOpt(token) && getUsername(token.value).Ret? && getAppRoles(token.value).Throw? ==>
      r == Raised(getAppRoles(token.value).exc)
  {
    if !TruthyOpt(token) then Redirect(TEMPORARY_REDIRECT, "/login")
    else
      match getUsername(token.value)
      case Throw(e) => Raised(e)
      case Ret(username) =>
        match getAppRoles(token.value)
        case Throw(e) => Raised(e)
        case Ret(approles) =>
          if adminAppRoleId !in RoleIds(approles) then
            JsonReply(403, ErrorJson(JStr("Unauthorized access")))
          else
            Data(RootBody(username, approles))
  }

  /** The role ids of the user's assignments, fetched the way `root` fetches
      them, as the role-id source `is_authorized` takes. */
  function AppRoleIds(getAppRoles: string -> Try<seq<Assignment>>): string -> Try<seq<Option<string>>>
  {
    t => match getAppRoles(t) case Throw(e) => Throw(e) case Ret(roles) => Ret(RoleIds(roles))
  }

  /** `root` and the producer's `is_authorized` with the admin scope take the
      same decision: for a signed-in user whose lookups succeed, the page is
      refused with 403 exactly when `is_authorized` says no, and users without
      any role assignment are refused by both. */
  lemma {:induction false} RootAgreesWithIsAuthorized(token: Option<string>, cfg: MsalProducer.Config,
                                getUsername: string -> Try<Option<string>>,
                                getAppRoles: string -> Try<seq<Assignment>>)
    requires TruthyOpt(token) && getUsername(token.value).Ret? && getAppRoles(token.value).Ret?
    ensures Status(Root(token, Some(cfg.adminAppRoleId), getUsername, getAppRoles)) == 403 <==>
      MsalProducer.IsAuthorized(MsalProducer.AdminScopes(cfg), token, AppRoleIds(getAppRoles)) == Ret(false)
  {
    var ids := RoleIds(getAppRoles(token.value).value);
    assert AppRoleIds(getAppRoles)(token.value) == Ret(ids);
    var want, have := (set x | x in [cfg.adminAppRoleId] :: Some(x)), (set y | y in ids);
    assert want == {Some(cfg.adminAppRoleId)};
    assert MsalProducer.Granted([cfg.adminAppRoleId], ids) <==> Some(cfg.adminAppRoleId) in ids;
  }
}

=== FILE: producer.dfy ===
/** src/producer.py: an operator logs in through an authorization-code flow
    kept in the process-wide `auth_flows` dict, the callback stores the token
    result in the process-wide `sessions` dict under the flow's `state` and puts
    that same `state` in the signed session cookie, and every request resolves
    the cookie back to a user and checks the user's group membership.

    Nothing here expires: flows are never removed, sessions only by logout. */
module Producer {
  import opened Py
  import opened Web
  import opened Msal
  import Text
  import Publish

  datatype Config = Config(
    clientId: string,
    clientSecret: string,
    tenantId: string,
    groupId: string,
    localDev: string)

  /** The two process-wide dicts. */
  datatype State = State(authFlows: map<string, Flow>, sessions: map<string, TokenResult>)

  /** `request.session.get("id")`: the session id the signed cookie carries. */
  type Cookie = Option<string>

  /** The state after a request, the cookie sent back, and the reply. */
  datatype Step<V> = Step(st: State, cookie: Cookie, reply: Reply<V>)

  /** The form posted to `/token`. Its `state` field is kept apart from the
      rest; the whole form is what the provider's code exchange receives. */
  datatype CallbackForm = CallbackForm(state: string, fields: map<string, string>)
  {
    function Dict(): map<string, string>
    {
      fields["state" := state]
    }
  }

  /** The view handed to producer-index.html. */
  datatype IndexView = IndexView(
    user: Option<TokenResult>,
    authorized: bool,
    clientId: string,
    clientSecret: string,
    tenantId: string,
    groupId: string)

  const SCOPES: seq<string> := ["User.Read"]
  const LOCAL_REDIRECT_URI := "http://localhost:8000/token"
  const NAMESPACE_MISSING := "Namespace required for authentication with System Managed Identity"
  const VARIANT := Publish.Variant("SMI", NAMESPACE_MISSING)

  function Get<K, V>(m: map<K, V>, k: K): Option<V>
  {
    if k in m then Some(m[k]) else None
  }

  /** The stored session the cookie points at, if any. */
  function CookieUser(st: State, cookie: Cookie): Option<TokenResult>
  {
    if cookie.Some? && Truthy(cookie.value) && cookie.value in st.sessions then Some(st.sessions[cookie.value]) else None
  }

  // ---------------------------------------------------------------------------
  // Dependencies

  /** `get_user`: cookie id, then the stored session, then a cached account for
      its username, then a silent token for that account. Any missing link
      gives `{}` (here None). The stores are only read. */
  function GetUser(st: State, cookie: Cookie, client: Client): (user: Option<TokenResult>)
    ensures user.Some? ==> CookieUser(st, cookie) == user
    ensures user.Some? <==>
      && CookieUser(st, cookie).Some?
      && CookieUser(st, cookie).value.Truthy()
      && |client.getAccounts(CookieUser(st, cookie).value.preferredUsername)| > 0
      && TruthyResult(client.acquireTokenSilent(SCOPES, client.getAccounts(CookieUser(st, cookie).value.preferredUsername)[0]))
  {
    if cookie.Some? && Truthy(cookie.value) then
      var user := Get(st.sessions, cookie.value);
      if user.Some? && user.value.Truthy() then
        var accounts := client.getAccounts(user.value.preferredUsername);
        if |accounts| > 0 then
          var chosen := accounts[0];
          var result := client.acquireTokenSilent(SCOPES, chosen);
          if TruthyResult(result) then user else None
        else None
      else None
    else None
  }

  /** `is_authorized`: a resolved user whose ID-token claims list the
      configured group. No user, or an empty user dict, is false; a missing
      `groups` claim counts as no groups; missing `id_token_claims` raises
      KeyError. */
  function IsAuthorized(user: Option<TokenResult>, groupId: string): (r: Try<bool>)
    ensures !TruthyResult(user) ==> r == Ret(false)
    ensures TruthyResult(user) && user.value.idTokenClaims.None? ==> r == Throw(KeyError)
    ensures TruthyResult(user) && user.value.idTokenClaims.Some? ==> r.Ret?
    ensures r == Ret(true) <==>
      && TruthyResult(user)
      && user.value.idTokenClaims.Some?
      && user.value.idTokenClaims.value.groups.Some?
      && exists i :: 0 <= i < |user.value.idTokenClaims.value.groups.value| &&
                     user.value.idTokenClaims.value.groups.value[i] == groupId
  {
    if TruthyResult(user) then
      match user.value.idTokenClaims
      case None => Throw(KeyError)
      case Some(claims) =>
        var groups := match claims.groups case Some(g) => g case None => [];
        Ret(groupId in groups)
    else Ret(false)
  }

  // ---------------------------------------------------------------------------
  // Handlers

  /** The callback address given to the provider: a fixed local address in
      local development, else the request's base URL with every "http"
      upgraded to "https", followed by "token". The upgrade loses nothing:
      the base URL can be read back from the result. */
  function RedirectUri(cfg: Config, baseUrl: string): (uri: string)
    ensures Truthy(cfg.localDev) ==> uri == LOCAL_REDIRECT_URI
    ensures !Truthy(cfg.localDev) ==>
      && |uri| >= 5
      && uri[|uri| - 5..] == "token"
      && uri[..|uri| - 5] == Text.Replace(baseUrl, "http", "https")
      && Text.Replace(uri[..|uri| - 5], "https", "http") == baseUrl
  {
    if !Truthy(cfg.localDev) then
      var upgraded := Text.Replace(baseUrl, "http", "https");
      Text.UpgradeThenDowngrade(baseUrl);
      assert (upgraded + "token")[..|upgraded|] == upgraded;
      upgraded + "token"
    else LOCAL_REDIRECT_URI
  }

  /** `GET /login`: start a flow; on success remember it under its `state`
      and send the browser to the provider. */
  function Login(st: State, cookie: Cookie, client: Client, cfg: Config, baseUrl: string): (r: Step<()>)
    ensures r.cookie == cookie && r.st.sessions == st.sessions
    ensures var flow := client.initiateAuthCodeFlow(SCOPES, RedirectUri(cfg, baseUrl));
      && (flow.HasError() ==> r.st == st && r.reply == JsonReply(500, ErrorJson(OptJson(flow.error))))
      && (!flow.HasError() && flow.state.None? ==> r.st == st && r.reply == Raised(KeyError))
      && (!flow.HasError() && flow.state.Some? ==>
            && r.st.authFlows == st.authFlows[flow.state.value := flow]
            && r.reply == (if flow.authUri.Some? then Redirect(TEMPORARY_REDIRECT, flow.authUri.value) else Raised(KeyError)))
  {
    var flow := client.initiateAuthCodeFlow(SCOPES, RedirectUri(cfg, baseUrl));
    if flow.HasError() then
      Step(st, cookie, JsonReply(500, ErrorJson(OptJson(flow.error))))
    else if flow.state.None? then
      Step(st, cookie, Raised(KeyError))
    else
      // the flow is stored before `flow["auth_uri"]` is read, so it stays
      // stored even when that lookup raises
      var st' := st.(authFlows := st.authFlows[flow.state.value := flow]);
      match flow.authUri
      case Some(uri) => Step(st', cookie, Redirect(TEMPORARY_REDIRECT, uri))
      case None => Step(st', cookie, Raised(KeyError))
  }

  /** `GET /logout`: drop the cookie's session and clear the cookie. A cookie
      without an id, or an id with no session, raises KeyError and changes
      nothing; so logging out twice fails the second time. */
  function Logout(st: State, cookie: Cookie, cfg: Config, baseUrl: string): (r: Step<()>)
    ensures cookie.Some? && cookie.value in st.sessions ==>
      && r.st.authFlows == st.authFlows
      && r.st.sessions.Keys == st.sessions.Keys - {cookie.value}
      && (forall k :: k in r.st.sessions ==> r.st.sessions[k] == st.sessions[k])
      && r.cookie.None?
      && r.reply == Redirect(TEMPORARY_REDIRECT, LogoutUrl(cfg, baseUrl))
    ensures !(cookie.Some? && cookie.value in st.sessions) ==> r == Step(st, cookie, Raised(KeyError))
  {
    match cookie
    case None => Step(st, cookie, Raised(KeyError))
    case Some(id) =>
      if id !in st.sessions then Step(st, cookie, Raised(KeyError))
      else Step(st.(sessions := st.sessions - {id}), None, Redirect(TEMPORARY_REDIRECT, LogoutUrl(cfg, baseUrl)))
  }

  function LogoutUrl(cfg: Config, baseUrl: string): string
  {
    "https://login.microsoftonline.com/" + cfg.tenantId + "/oauth2/v2.0/logout?post_logout_redirect_uri=" + baseUrl
  }

  /** `POST /token`: exchange the code against the flow stored under the
      form's `state`. A result with a non-empty access token becomes the
      session stored under that `state`, and the cookie id becomes that same
      `state`. A result without one, or a ValueError, changes nothing. The
      flow store is never touched, so the flow stays usable after the
      callback. */
  function Token(st: State, cookie: Cookie, client: Client, form: CallbackForm): (r: Step<()>)
    ensures r.st.authFlows == st.authFlows
    ensures var e := client.acquireTokenByAuthCodeFlow(Get(st.authFlows, form.state), form.Dict());
      && (e.Returned? && TruthyOpt(e.result.accessToken) ==>
            r.st.sessions == st.sessions[form.state := e.result] && r.cookie == Some(form.state))
      && (!(e.Returned? && TruthyOpt(e.result.accessToken)) ==> r.st == st && r.cookie == cookie)
      && (r.reply == if e.Failed? && e.exc != ValueError then Raised(e.exc) else Redirect(FOUND, "/"))
  {
    var found := Redirect(FOUND, "/");
    match client.acquireTokenByAuthCodeFlow(Get(st.authFlows, form.state), form.Dict())
    case Failed(e) =>
      if e == ValueError then Step(st, cookie, found) else Step(st, cookie, Raised(e))
    case Returned(result) =>
      if !TruthyOpt(result.accessToken) then Step(st, cookie, found)
      else Step(st.(sessions := st.sessions[form.state := result]), Some(form.state), found)
  }

  /** `GET /`: the page shows the user, the decision, and the client id,
      client secret and tenant id cut down to their first and last nine
      characters. */
  function Index(user: Option<TokenResult>, authorized: bool, cfg: Config): (r: Reply<IndexView>)
    ensures r.Render? && r.template == "producer-index.html"
    ensures r.view.user == user && r.view.authorized == authorized && r.view.groupId == cfg.groupId
    ensures ShowsOnlyEnds(r.view.clientId, cfg.clientId, 9, 9)
    ensures ShowsOnlyEnds(r.view.clientSecret, cfg.clientSecret, 9, 9)
    ensures ShowsOnlyEnds(r.view.tenantId, cfg.tenantId, 9, 9)
  {
    Render("producer-index.html", IndexView(
      user, authorized,
      Mask(cfg.clientId, 9, 9), Mask(cfg.clientSecret, 9, 9), Mask(cfg.tenantId, 9, 9),
      cfg.groupId))
  }

  /** `POST /sb-msg`: authorization is checked before anything in the form;
      only an authorized request with what its method needs reaches the
      broker. */
  function SbMsg(authorized: bool, form: Publish.Form, construct: Option<Exc>, send: Publish.Send): (o: Publish.Outcome)
    ensures o.attempted.Some? <==> authorized && Publish.Complete(form) && construct.None?
    ensures !authorized ==> o == Publish.Outcome(None, JsonReply(401, JStr("Unauthorized")))
    ensures authorized && form.auth == Publish.Identity && !Truthy(form.namespace) ==>
              o.reply == Html(400, NAMESPACE_MISSING)
    ensures authorized && form.auth == Publish.SharedKey && !Truthy(form.connStr) ==>
              o.reply == Html(400, Publish.CONN_STR_MISSING)
    ensures authorized && Publish.Complete(form) && construct.Some? ==> o.reply == Raised(construct.value)
    ensures Status(o.reply) == 200 <==>
      authorized && Publish.Complete(form) && construct.None? && send == Publish.Sent
  {
    if !authorized then Publish.Outcome(None, JsonReply(401, JStr("Unauthorized")))
    else Publish.Publish(form, construct, send, VARIANT)
  }

  // ---------------------------------------------------------------------------
  // Properties of the state machine

  /** Every session is keyed by the `state` of a flow this process started. */
  ghost predicate Inv(st: State)
  {
    st.sessions.Keys <= st.authFlows.Keys
  }

  /** Given that the provider only exchanges a code for the flow whose `state`
      the callback carries, every handler keeps sessions keyed by started
      flows; and no handler ever removes a flow. */
  lemma StepsKeepInv(st: State, cookie: Cookie, client: Client, cfg: Config, baseUrl: string, form: CallbackForm)
    requires Inv(st) && ChecksState(client)
    ensures Inv(Login(st, cookie, client, cfg, baseUrl).st)
    ensures Inv(Token(st, cookie, client, form).st)
    ensures Inv(Logout(st, cookie, cfg, baseUrl).st)
    ensures st.authFlows.Keys <= Login(st, cookie, client, cfg, baseUrl).st.authFlows.Keys
    ensures st.authFlows == Token(st, cookie, client, form).st.authFlows
    ensures st.authFlows == Logout(st, cookie, cfg, baseUrl).st.authFlows
  {
    var e := client.acquireTokenByAuthCodeFlow(Get(st.authFlows, form.state), form.Dict());
    if e.Returned? && TruthyOpt(e.result.accessToken) {
      assert Exchanged(e);
      assert Get(st.authFlows, form.state).Some?;
    }
  }

  /** A full round: login stores flow f; the callback for f's state signs the
      browser in with that state as its session id; the user then resolves to
      the stored result; logout removes it, after which the user no longer
      resolves and a second logout raises KeyError. The flow is still stored
      at the end. */
  lemma LoginCallbackLogout(
    st: State, cookie: Cookie, client: Client, cfg: Config, baseUrl: string,
    fields: map<string, string>)
    requires var flow := client.initiateAuthCodeFlow(SCOPES, RedirectUri(cfg, baseUrl));
      !flow.HasError() && flow.state.Some? && flow.authUri.Some? && Truthy(flow.state.value)
    requires var flow := client.initiateAuthCodeFlow(SCOPES, RedirectUri(cfg, baseUrl));
      var e := client.acquireTokenByAuthCodeFlow(Some(flow), fields["state" := flow.state.value]);
      && e.Returned? && TruthyOpt(e.result.accessToken)
      && |client.getAccounts(e.result.preferredUsername)| > 0
      && TruthyResult(client.acquireTokenSilent(SCOPES, client.getAccounts(e.result.preferredUsername)[0]))
    ensures var flow := client.initiateAuthCodeFlow(SCOPES, RedirectUri(cfg, baseUrl));
      var s := flow.state.value;
      var result := client.acquireTokenByAuthCodeFlow(Some(flow), fields["state" := s]).result;
      var l := Login(st, cookie, client, cfg, baseUrl);
      var t := Token(l.st, l.cookie, client, CallbackForm(s, fields));
      var o := Logout(t.st, t.cookie, cfg, baseUrl);
      && l.reply == Redirect(TEMPORARY_REDIRECT, flow.authUri.value)
      && t.cookie == Some(s)
      && t.reply == Redirect(FOUND, "/")
      && GetUser(t.st, t.cookie, client) == Some(result)
      && s !in o.st.sessions
      && o.cookie.None?
      && GetUser(o.st, o.cookie, client).None?
      && Logout(o.st, o.cookie, cfg, baseUrl).reply == Raised(KeyError)
      && o.st.authFlows[s] == flow
  {
    var flow := client.initiateAuthCodeFlow(SCOPES, RedirectUri(cfg, baseUrl));
    var s := flow.state.value;
    var l := Login(st, cookie, client, cfg, baseUrl);
    assert Get(l.st.authFlows, s) == Some(flow);
    assert CallbackForm(s, fields).Dict() == fields["state" := s];
    var e := client.acquireTokenByAuthCodeFlow(Some(flow), fields["state" := s]);
    assert e.result.Truthy();
  }

  /** Logging out revokes access: whatever the cookie held, after `logout`
      (whether it succeeded or raised) the cookie no longer resolves to a
      user, so the group check says no. */
  lemma LogoutRevokesAccess(st: State, cookie: Cookie, client: Client, cfg: Config, baseUrl: string)
    ensures var o := Logout(st, cookie, cfg, baseUrl);
      && GetUser(o.st, o.cookie, client).None?
      && IsAuthorized(GetUser(o.st, o.cookie, client), cfg.groupId) == Ret(false)
  {
    var o := Logout(st, cookie, cfg, baseUrl);
    assert CookieUser(o.st, o.cookie).None?;
  }

  /** The group check only admits a request whose cookie names a stored
      session holding the group in its claims. */
  lemma AuthorizedNeedsStoredSession(st: State, cookie: Cookie, client: Client, groupId: string)
    ensures IsAuthorized(GetUser(st, cookie, client), groupId) == Ret(true) ==>
      && cookie.Some? && cookie.value in st.sessions
      && st.sessions[cookie.value].idTokenClaims.Some?
      && st.sessions[cookie.value].idTokenClaims.value.groups.Some?
      && groupId in st.sessions[cookie.value].idTokenClaims.value.groups.value
  {
  }

  /** Behind a proxy that already speaks https, the blanket replacement
      doubles the scheme's "s". */
  lemma SecureBaseUrlDoubled(cfg: Config, baseUrl: string)
    requires !Truthy(cfg.localDev) && Text.StartsWith(baseUrl, "https")
    ensures Text.StartsWith(RedirectUri(cfg, baseUrl), "httpss")
  {
    assert baseUrl[..4] == "http" by { assert baseUrl[..4] == baseUrl[..5][..4]; }
    var rest := baseUrl[4..];
    assert rest[0] == 's' by { assert baseUrl[..5][4] == baseUrl[4]; }
    Text.UpgradeFirstChar(rest);
    var up := Text.Replace(rest, "http", "https");
    assert Text.Replace(baseUrl, "http", "https") == "https" + up;
    assert RedirectUri(cfg, baseUrl) == "https" + up + "token";
    assert ("https" + up + "token")[..6] == "httpss";
  }

  /** A base URL without "http" in it is used as it is. */
  lemma PlainBaseUrlKept(cfg: Config, baseUrl: string)
    requires !Truthy(cfg.localDev) && !Text.Contains(baseUrl, "http")
    ensures RedirectUri(cfg, baseUrl) == baseUrl + "token"
  {
    Text.ReplaceAbsent(baseUrl, "http", "https");
  }
}

=== FILE: publish.dfy ===
/** The `/sb-msg` handler once authorization has passed, shared by the two
    producers: check that the chosen broker authentication method has what it
    needs, then send one message to the topic and report the outcome. */
module Publish {
  import opened Py
  import opened Web
  import Text

  /** The `sb_auth_method` form value: "1" authenticates with an Azure
      identity and needs a namespace, "2" uses a shared access key and needs
      a connection string. */
  datatype AuthMethod = Identity | SharedKey

  datatype Form = Form(
    auth: AuthMethod,
    namespace: string,
    connStr: string,
    topic: string,
    subject: string,
    body: string)

  /** The message handed to the topic sender. */
  datatype Message = Message(topic: string, subject: string, body: string)

  /** How the `try` block around getting the topic sender, sending and
      closing ended. A failure carries the family the `except` clause tests
      (a subclass of ServiceBusError counts as ServiceBusError), the text
      `str(type(e))` gives for the class actually raised, and `e.args[0]`
      (None when the exception was raised without arguments). */
  datatype Send = Sent | SendFailed(exc: Exc, typeName: string, firstArg: Option<string>)

  /** The message the handler tried to send, if it got that far, and its reply. */
  datatype Outcome = Outcome(attempted: Option<Message>, reply: Reply<()>)

  /** How the two producers differ: the enum name of method "1" and the text
      of the missing-namespace answer. */
  datatype Variant = Variant(identityName: string, namespaceMissing: string)

  const CONN_STR_MISSING := "Connection string required for Shared Access Key authentication"

  function MethodName(m: AuthMethod, v: Variant): string
  {
    match m
    case Identity => v.identityName
    case SharedKey => "SAS"
  }

  /** The form carries what the chosen method needs. */
  predicate Complete(form: Form)
  {
    && !(form.auth == Identity && !Truthy(form.namespace))
    && !(form.auth == SharedKey && !Truthy(form.connStr))
  }

  /** The JSON answer to a successful send; the body is shown HTML-escaped. */
  function SuccessJson(form: Form, v: Variant): Json
  {
    JObj([
      ("auth_method", JStr(MethodName(form.auth, v))),
      ("topic", JStr(form.topic)),
      ("subject", JStr(form.subject)),
      ("body", JStr(Text.HtmlEscape(form.body))),
      ("status", JStr("Success"))])
  }

  /** The JSON answer when the send fails with an exception the handler
      catches. Reading `e.args[0]` of an exception without arguments raises
      IndexError inside the `except` clause. */
  function FailureReply(typeName: string, firstArg: Option<string>): Reply<()>
  {
    match firstArg
    case Some(m) => JsonReply(500, JObj([("error", JStr(typeName)), ("message", JStr(m))]))
    case None => Raised(IndexError)
  }

  /** An exception the `except (ServiceBusError, ValueError)` clause catches. */
  predicate Caught(e: Exc)
  {
    e == ServiceBusError || e == ValueError
  }

  /** The checks in order, then `get_sb_client` (construct: the exception it
      raises, if any; it runs outside the `try`), then the send. */
  function Publish(form: Form, construct: Option<Exc>, send: Send, v: Variant): (o: Outcome)
    ensures o.attempted.Some? <==> Complete(form) && construct.None?
    ensures o.attempted.Some? ==> o.attempted.value == Message(form.topic, form.subject, form.body)
    ensures form.auth == Identity && !Truthy(form.namespace) ==>
              o.reply == Html(400, v.namespaceMissing)
    ensures form.auth == SharedKey && !Truthy(form.connStr) ==>
              o.reply == Html(400, CONN_STR_MISSING)
    ensures Complete(form) && construct.Some? ==> o.reply == Raised(construct.value)
    ensures Status(o.reply) == 200 <==> Complete(form) && construct.None? && send == Sent
    ensures Status(o.reply) == 200 ==> o.reply == JsonReply(200, SuccessJson(form, v))
    ensures Complete(form) && construct.None? && send.SendFailed? ==>
              if Caught(send.exc) then o.reply == FailureReply(send.typeName, send.firstArg)
              else o.reply == Raised(send.exc)
  {
    if form.auth == Identity && !Truthy(form.namespace) then
      Outcome(None, Html(400, v.namespaceMissing))
    else if form.auth == SharedKey && !Truthy(form.connStr) then
      Outcome(None, Html(400, CONN_STR_MISSING))
    else if construct.Some? then
      Outcome(None, Raised(construct.value))
    else
      var msg := Message(form.topic, form.subject, form.body);
      match send
      case Sent => Outcome(Some(msg), JsonReply(200, SuccessJson(form, v)))
      case SendFailed(e, name, arg) =>
        if Caught(e) then Outcome(Some(msg), FailureReply(name, arg))
        else Outcome(Some(msg), Raised(e))
  }
}

=== FILE: py.dfy ===
/** The pieces of Python value semantics the handlers rely on: absent values,
    exceptions that escape a handler, truthiness of strings, and string slicing
    with the clamping rules of `s[:n]` and `s[-n:]`. */
module Py {

  /** A value that may be Python's `None` (or a missing dictionary key). */
  datatype Option<+T> = None | Some(value: T)

  /** The exceptions the modelled code can let escape. */
  datatype Exc =
    | KeyError
    | TypeError
    | ValueError
    | AttributeError
    | IndexError
    | HttpError          // requests' raise_for_status
    | ServiceBusError    // azure.servicebus.exceptions.ServiceBusError
    | ProviderError      // anything else raised inside the identity provider library

  /** The outcome of a call that either returns a value or raises. */
  datatype Try<+T> = Ret(value: T) | Throw(exc: Exc)

  /** A string is truthy when it is non-empty. */
  predicate Truthy(s: string)
  {
    |s| > 0
  }

  /** An optional string is truthy when it is present and non-empty. */
  predicate TruthyOpt(o: Option<string>)
  {
    o.Some? && Truthy(o.value)
  }

  /** How an f-string renders an optional string: `None` prints as "None". */
  function Format(o: Option<string>): string
  {
    match o
    case None => "None"
    case Some(s) => s
  }

  function Min(a: nat, b: nat): nat
  {
    if a <= b then a else b
  }

  /** `s[:n]`: the first n characters, or all of s when it is shorter. */
  function Head(s: string, n: nat): (r: string)
    ensures |r| == Min(|s|, n)
    ensures r == s[..|r|]
  {
    if |s| <= n then s else s[..n]
  }

  /** `s[-n:]`: the last n characters, or all of s when it is shorter.
      Python reads `s[-0:]` as `s[0:]`, so n = 0 yields the whole string. */
  function Tail(s: string, n: nat): (r: string)
    ensures n == 0 ==> r == s
    ensures n > 0 ==> |r| == Min(|s|, n)
    ensures r == s[|s| - |r|..]
  {
    if n == 0 || |s| <= n then s else s[|s| - n..]
  }

  /** `s[:h] + "..." + s[-t:]`, the form in which the pages show a secret. */
  function Mask(s: string, h: nat, t: nat): (r: string)
    ensures |r| >= Min(|s|, h) + 3
    ensures r[..Min(|s|, h)] == s[..Min(|s|, h)]
    ensures r[Min(|s|, h)..Min(|s|, h) + 3] == "..."
    ensures t > 0 ==> |r| == Min(|s|, h) + 3 + Min(|s|, t)
    ensures t > 0 ==> r[|r| - Min(|s|, t)..] == s[|s| - Min(|s|, t)..]
    ensures t > 0 ==> ShowsOnlyEnds(r, s, h, t)
  {
    Head(s, h) + "..." + Tail(s, t)
  }

  /** The shown text is the first h and the last t characters of s (each
      clamped to |s|) around an ellipsis, and nothing else. */
  predicate ShowsOnlyEnds(shown: string, s: string, h: nat, t: nat)
  {
    shown == s[..Min(|s|, h)] + "..." + s[|s| - Min(|s|, t)..]
  }

  /** A secret no longer than either kept end is shown in full, twice. */
  lemma MaskShortSecretShownTwice(s: string, h: nat, t: nat)
    requires t > 0 && |s| <= h && |s| <= t
    ensures Mask(s, h, t) == s + "..." + s
  {
    var r := Mask(s, h, t);
    assert r[..|s|] == s;
    assert r[|s| + 3..] == s;
    assert r == r[..|s|] + r[|s|..|s| + 3] + r[|s| + 3..];
  }

  /** A secret longer than both kept ends together never appears in its mask:
      at most h + t of its characters are revealed. */
  lemma MaskHidesLongSecret(s: string, h: nat, t: nat)
    requires t > 0 && |s| > h + t
    ensures |Mask(s, h, t)| == h + t + 3
    ensures Mask(s, h, t)[..h] == s[..h]
    ensures Mask(s, h, t)[h..h + 3] == "..."
    ensures Mask(s, h, t)[h + 3..] == s[|s| - t..]
  {
  }
}

=== FILE: rdf_patch.dfy ===
/** The RDF Patch a received "rdf" message becomes before it is appended to
    the RDF Delta log: an `H id` header with a fresh id, an `H prev` header
    naming the log's latest patch when there is one, then one `A` row per line
    of the message inside a `TX` / `TC` transaction. The patch is a sequence
    of lines; the blank lines the template leaves are not part of it. */
module RdfPatch {
  import opened Py
  import Text

  const ID_PREFIX := "H id <uuid:"
  const PREV_PREFIX := "H prev <uuid:"
  const HEADER_END := "> ."
  const TX := "TX ."
  const TC := "TC ."
  const ROW_PREFIX := "A "

  function IdHeader(id: string): string
  {
    ID_PREFIX + id + HEADER_END
  }

  function PrevHeader(id: string): string
  {
    PREV_PREFIX + id + HEADER_END
  }

  /** The headers: the new id, then the previous one if the log has a truthy
      latest id. */
  function Headers(newId: string, latestId: Option<string>): seq<string>
  {
    [IdHeader(newId)] + (if TruthyOpt(latestId) then [PrevHeader(latestId.value)] else [])
  }

  function Rows(lines: seq<string>): seq<string>
  {
    seq(|lines|, i requires 0 <= i < |lines| => ROW_PREFIX + lines[i])
  }

  /** `rdf_to_patch`, with the new id and the log's latest id as inputs. */
  function RdfToPatch(rdf: string, newId: string, latestId: Option<string>): (patch: seq<string>)
    ensures var lines := Text.Split(rdf, '\n');
      var h := if TruthyOpt(latestId) then 2 else 1;
      && |patch| == h + |lines| + 2
      && patch[0] == IdHeader(newId)
      && (TruthyOpt(latestId) ==> patch[1] == PrevHeader(latestId.value))
      && patch[h] == TX
      && patch[|patch| - 1] == TC
      && (forall i :: 0 <= i < |lines| ==> patch[h + 1 + i] == ROW_PREFIX + lines[i])
  {
    Headers(newId, latestId) + [TX] + Rows(Text.Split(rdf, '\n')) + [TC]
  }

  /** What a patch says: its id, the id it follows, and the RDF text it adds. */
  datatype Parsed = Parsed(id: string, prev: Option<string>, rdf: string)

  predicate IsHeader(line: string, prefix: string)
  {
    Text.StartsWith(line, prefix) && |line| >= |prefix| + |HEADER_END| && line[|line| - |HEADER_END|..] == HEADER_END
  }

  function HeaderValue(line: string, prefix: string): string
    requires IsHeader(line, prefix)
  {
    line[|prefix|..|line| - |HEADER_END|]
  }

  function RowText(row: string): string
  {
    if |row| >= |ROW_PREFIX| then row[|ROW_PREFIX|..] else row
  }

  /** Reads a patch in the shape RdfToPatch writes: the lines of its `A` rows
      joined back with newlines. Anything else is not a patch. */
  function ParsePatch(p: seq<string>): Option<Parsed>
  {
    if |p| < 3 || !IsHeader(p[0], ID_PREFIX) then None
    else
      var id := HeaderValue(p[0], ID_PREFIX);
      var hasPrev := IsHeader(p[1], PREV_PREFIX);
      var prev := if hasPrev then Some(HeaderValue(p[1], PREV_PREFIX)) else None;
      var h := if hasPrev then 2 else 1;
      if |p| < h + 3 || p[h] != TX || p[|p| - 1] != TC then None
      else
        var body := p[h + 1..|p| - 1];
        if exists i :: 0 <= i < |body| && !Text.StartsWith(body[i], ROW_PREFIX) then None
        else Some(Parsed(id, prev, Text.Join(seq(|body|, i requires 0 <= i < |body| => RowText(body[i])), '\n')))
  }

  lemma HeaderRoundTrip(prefix: string, id: string)
    ensures IsHeader(prefix + id + HEADER_END, prefix)
    ensures HeaderValue(prefix + id + HEADER_END, prefix) == id
  {
    var line := prefix + id + HEADER_END;
    assert line[..|prefix|] == prefix;
    assert line[|line| - |HEADER_END|..] == HEADER_END;
    assert line[|prefix|..|line| - |HEADER_END|] == id;
  }

  /** The patch records exactly what went into it: the new id, the previous
      id when it was truthy, and the message text, every line of it in order
      (empty lines included). */
  lemma PatchRoundTrip(rdf: string, newId: string, latestId: Option<string>)
    ensures ParsePatch(RdfToPatch(rdf, newId, latestId)) ==
      Some(Parsed(newId, if TruthyOpt(latestId) then latestId else None, rdf))
  {
    var p := RdfToPatch(rdf, newId, latestId);
    var lines := Text.Split(rdf, '\n');
    var h := if TruthyOpt(latestId) then 2 else 1;
    HeaderRoundTrip(ID_PREFIX, newId);
    if TruthyOpt(latestId) {
      HeaderRoundTrip(PREV_PREFIX, latestId.value);
    } else {
      assert p[1] == TX;
      Text.NotStartsWithAt(p[1], PREV_PREFIX, 0);
    }
    var body := p[h + 1..|p| - 1];
    assert |body| == |lines|;
    forall i | 0 <= i < |body|
      ensures Text.StartsWith(body[i], ROW_PREFIX) && RowText(body[i]) == lines[i]
    {
      assert body[i] == ROW_PREFIX + lines[i];
      assert body[i][..2] == ROW_PREFIX;
    }
    var stripped := seq(|body|, i requires 0 <= i < |body| => RowText(body[i]));
    assert stripped == lines;
    Text.JoinSplit(rdf, '\n');
  }
}

=== FILE: silent_token.dfy ===
/** The token handling shared by src/msal-producer.py and msalfapi.py: a
    single process-wide `session` dict whose only key is "auth_flow";
    `get_token` takes a silent token for the first cached account or else
    starts a new flow in that one slot; the `/token` callback exchanges the
    code and keeps nothing. */
module SilentToken {
  import opened Py
  import opened Web
  import opened Msal

  /** The process-wide `session` dict: `session.get("auth_flow")`. */
  datatype Session = Session(authFlow: Option<Flow>)

  const SCOPES: seq<string> := ["AppRoleAssignment.ReadWrite.All"]

  /** The silent result for the first cached account, or None when the cache
      holds no account. */
  function SilentResult(client: Client): Option<TokenResult>
  {
    var accounts := client.getAccounts(None);
    if |accounts| > 0 then client.acquireTokenSilent(SCOPES, accounts[0]) else None
  }

  /** `get_token` as written. With a truthy silent result it returns that
      result's access token (a result without one raises KeyError) and leaves
      the session alone. Otherwise it starts a flow for redirectUri; a flow
      holding "error" reaches `logging.DEBUG(...)`, which calls an int and
      raises TypeError before anything is stored; any other flow replaces the
      one slot and the token is None. */
  function GetToken(s: Session, client: Client, redirectUri: string): (r: (Session, Try<Option<string>>))
    ensures TruthyResult(SilentResult(client)) ==>
      && r.0 == s
      && r.1 == (if SilentResult(client).value.accessToken.Some?
                 then Ret(SilentResult(client).value.accessToken) else Throw(KeyError))
    ensures !TruthyResult(SilentResult(client)) ==>
      var flow := client.initiateAuthCodeFlow(SCOPES, redirectUri);
      && (flow.HasError() ==> r == (s, Throw(TypeError)))
      && (!flow.HasError() ==> r == (Session(Some(flow)), Ret(None)))
    ensures r.0 != s ==> r.0.authFlow.Some? && !r.0.authFlow.value.HasError()
  {
    var result := SilentResult(client);
    if !TruthyResult(result) then
      var flow := client.initiateAuthCodeFlow(SCOPES, redirectUri);
      if flow.HasError() then (s, Throw(TypeError))
      else (Session(Some(flow)), Ret(None))
    else
      match result.value.accessToken
      case Some(token) => (s, Ret(Some(token)))
      case None => (s, Throw(KeyError))
  }

  /** `get_token` as evidently intended: the flow error is logged and the
      function carries on, storing the flow and returning None. */
  function GetTokenIntended(s: Session, client: Client, redirectUri: string): (r: (Session, Try<Option<string>>))
    ensures r.1 != Throw(TypeError)
    ensures !TruthyResult(SilentResult(client)) ==>
      r == (Session(Some(client.initiateAuthCodeFlow(SCOPES, redirectUri))), Ret(None))
    ensures TruthyResult(SilentResult(client)) ==> r.0 == s
  {
    var result := SilentResult(client);
    if !TruthyResult(result) then
      (Session(Some(client.initiateAuthCodeFlow(SCOPES, redirectUri))), Ret(None))
    else
      match result.value.accessToken
      case Some(token) => (s, Ret(Some(token)))
      case None => (s, Throw(KeyError))
  }

  /** The two differ exactly when a new flow is needed and it holds "error":
      the code as written raises TypeError where the intended code stores the
      flow and reports no token. */
  lemma {:induction false} GetTokenFlowErrorRaises(s: Session, client: Client, redirectUri: string)
    ensures GetToken(s, client, redirectUri) != GetTokenIntended(s, client, redirectUri) <==>
      !TruthyResult(SilentResult(client)) && client.initiateAuthCodeFlow(SCOPES, redirectUri).HasError()
    ensures !TruthyResult(SilentResult(client)) && client.initiateAuthCodeFlow(SCOPES, redirectUri).HasError() ==>
      GetToken(s, client, redirectUri).1 == Throw(TypeError) &&
      GetTokenIntended(s, client, redirectUri).1 == Ret(None)
  {
    if !TruthyResult(SilentResult(client)) && client.initiateAuthCodeFlow(SCOPES, redirectUri).HasError() {
      assert GetToken(s, client, redirectUri).1 == Throw(TypeError);
    }
  }

  /** The `/token` callback: exchange the code against the flow in the slot.
      Whatever the exchange yields, the token is dropped and the session is
      left as it was; a ValueError is swallowed, anything else escapes. */
  function TokenCallback(s: Session, client: Client, query: map<string, string>): (r: (Session, Reply<()>))
    ensures r.0 == s
    ensures var e := client.acquireTokenByAuthCodeFlow(s.authFlow, query);
      r.1 == if e.Failed? && e.exc != ValueError then Raised(e.exc) else Redirect(TEMPORARY_REDIRECT, "/")
  {
    match client.acquireTokenByAuthCodeFlow(s.authFlow, query)
    case Failed(e) =>
      if e == ValueError then (s, Redirect(TEMPORARY_REDIRECT, "/")) else (s, Raised(e))
    case Returned(result) =>
      // `token = result["access_token"]` is assigned and never used
      (s, Redirect(TEMPORARY_REDIRECT, "/"))
  }
}

=== FILE: text.dfy ===
/** Python string operations used by the handlers, written out with Python's
    semantics: `str.replace`, `str.split` / `str.join` on a one-character
    separator, `html.escape` followed by the newline-to-`<br>` replacement, and
    `str(int)` as used inside f-strings. */
module Text {
  import opened Py

  predicate StartsWith(s: string, p: string)
  {
    |p| <= |s| && s[..|p|] == p
  }

  /** p occurs somewhere in s. */
  predicate Contains(s: string, p: string)
    decreases |s|
  {
    StartsWith(s, p) || (|s| > 0 && Contains(s[1..], p))
  }

  /** t occurs in any text that has it between two others. */
  lemma {:induction false} ContainsMiddle(a: string, t: string, b: string)
    ensures Contains(a + t + b, t)
    decreases |a|
  {
    if |a| == 0 {
      assert a + t + b == t + b;
      assert (t + b)[..|t|] == t;
    } else {
      ContainsMiddle(a[1..], t, b);
      assert (a + t + b)[1..] == a[1..] + t + b;
    }
  }

  // ---------------------------------------------------------------------------
  // str.replace

  /** `s.replace(pat, rep)`: every non-overlapping occurrence of pat, scanning
      from the left, is replaced; an empty pat inserts rep around every
      character. */
  function Replace(s: string, pat: string, rep: string): string
    decreases |s|
  {
    if |pat| == 0 then
      if |s| == 0 then rep else rep + [s[0]] + Replace(s[1..], pat, rep)
    else if |s| < |pat| then s
    else if s[..|pat|] == pat then rep + Replace(s[|pat|..], pat, rep)
    else [s[0]] + Replace(s[1..], pat, rep)
  }

  /** Replacing a pattern that does not occur changes nothing. */
  lemma {:induction false} ReplaceAbsent(s: string, pat: string, rep: string)
    requires |pat| > 0 && !Contains(s, pat)
    ensures Replace(s, pat, rep) == s
    decreases |s|
  {
    if |s| >= |pat| {
      assert !StartsWith(s, pat);
      ReplaceAbsent(s[1..], pat, rep);
      assert s == [s[0]] + s[1..];
    }
  }

  /** For a one-character pattern, replacement distributes over concatenation:
      no occurrence can straddle the seam. */
  lemma {:induction false} ReplaceCharConcat(a: string, b: string, pat: string, rep: string)
    requires |pat| == 1
    ensures Replace(a + b, pat, rep) == Replace(a, pat, rep) + Replace(b, pat, rep)
    decreases |a|
  {
    if |a| == 0 {
      assert a + b == b;
    } else {
      assert (a + b)[..1] == a[..1];
      assert (a + b)[1..] == a[1..] + b;
      ReplaceCharConcat(a[1..], b, pat, rep);
    }
  }

  /** Upgrading "http" to "https" keeps the first character. */
  lemma UpgradeFirstChar(s: string)
    requires |s| > 0
    ensures |Replace(s, "http", "https")| > 0
    ensures Replace(s, "http", "https")[0] == s[0]
  {
    if |s| >= 4 && s[..4] == "http" {
      assert s[0] == s[..4][0];
    }
  }

  /** A prefix of the upgraded string that holds no 'h' was already a prefix of
      the original: an 'h'-free text cannot be produced by a replacement. */
  lemma {:induction false} UpgradeHFreePrefix(s: string, p: string)
    requires forall i :: 0 <= i < |p| ==> p[i] != 'h'
    requires StartsWith(Replace(s, "http", "https"), p)
    ensures StartsWith(s, p)
    decreases |p|
  {
    if |p| > 0 {
      var r := Replace(s, "http", "https");
      assert r[0] == p[0];
      if |s| > 0 {
        UpgradeFirstChar(s);
        assert s[0] == p[0];
        if |s| >= 4 {
          assert s[..4][0] == s[0];
          assert s[..4] != "http";
        }
        assert r == [s[0]] + Replace(s[1..], "http", "https");
        assert r[1..][..|p| - 1] == p[1..];
        UpgradeHFreePrefix(s[1..], p[1..]);
        assert s[..|p|] == [s[0]] + s[1..][..|p| - 1];
        assert p == [p[0]] + p[1..];
      }
    }
  }

  /** `replace("http", "https")` loses nothing: replacing "https" back by
      "http" recovers the original string, whatever it contained. */
  lemma {:induction false} UpgradeThenDowngrade(s: string)
    ensures Replace(Replace(s, "http", "https"), "https", "http") == s
    decreases |s|
  {
    var r := Replace(s, "http", "https");
    if |s| < 4 {
      assert r == s;
    } else if s[..4] == "http" {
      var t := Replace(s[4..], "http", "https");
      assert r == "https" + t;
      assert r[..5] == "https";
      assert r[5..] == t;
      UpgradeThenDowngrade(s[4..]);
      assert s == s[..4] + s[4..];
    } else {
      var t := Replace(s[1..], "http", "https");
      assert r == [s[0]] + t;
      if |r| >= 5 && r[..5] == "https" {
        assert s[0] == r[..5][0];
        assert t[..4] == r[..5][1..];
        UpgradeHFreePrefix(s[1..], "ttps");
        assert false;
      }
      assert Replace(r, "https", "http") == [s[0]] + Replace(t, "https", "http");
      UpgradeThenDowngrade(s[1..]);
      assert s == [s[0]] + s[1..];
    }
  }

  // ---------------------------------------------------------------------------
  // str.split / str.join on a one-character separator

  /** `s.split(sep)`: always at least one piece (`"".split(sep) == [""]`), and
      no piece holds the separator. */
  function Split(s: string, sep: char): (r: seq<string>)
    ensures |r| > 0
    ensures forall i :: 0 <= i < |r| ==> sep !in r[i]
    decreases |s|
  {
    if |s| == 0 then [""]
    else
      var rest := Split(s[1..], sep);
      if s[0] == sep then [""] + rest
      else [[s[0]] + rest[0]] + rest[1..]
  }

  /** `sep.join(xs)`. */
  function Join(xs: seq<string>, sep: char): string
    decreases |xs|
  {
    if |xs| == 0 then ""
    else if |xs| == 1 then xs[0]
    else xs[0] + [sep] + Join(xs[1..], sep)
  }

  /** Joining the pieces of a split gives back the original string. */
  lemma {:induction false} JoinSplit(s: string, sep: char)
    ensures Join(Split(s, sep), sep) == s
    decreases |s|
  {
    if |s| > 0 {
      var rest := Split(s[1..], sep);
      JoinSplit(s[1..], sep);
      if s[0] == sep {
        assert Split(s, sep) == [""] + rest;
        assert ([""] + rest)[1..] == rest;
        assert s == [sep] + s[1..];
      } else {
        var r := Split(s, sep);
        assert r == [[s[0]] + rest[0]] + rest[1..];
        if |rest| == 1 {
          assert Join(r, sep) == [s[0]] + rest[0];
        } else {
          assert r[1..] == rest[1..];
          assert Join(rest, sep) == rest[0] + [sep] + Join(rest[1..], sep);
          assert Join(r, sep) == [s[0]] + rest[0] + [sep] + Join(rest[1..], sep);
        }
        assert s == [s[0]] + s[1..];
      }
    }
  }

  lemma SplitPrepend(c: char, s: string, sep: char)
    requires c != sep
    ensures Split([c] + s, sep) == [[c] + Split(s, sep)[0]] + Split(s, sep)[1..]
  {
    assert ([c] + s)[1..] == s;
  }

  lemma {:induction false} SplitPieceThenRest(x: string, rest: string, sep: char)
    requires sep !in x
    ensures Split(x + [sep] + rest, sep) == [x] + Split(rest, sep)
    decreases |x|
  {
    if |x| == 0 {
      assert x + [sep] + rest == [sep] + rest;
      assert ([sep] + rest)[1..] == rest;
    } else {
      var y := x[1..];
      assert x + [sep] + rest == [x[0]] + (y + [sep] + rest);
      assert x[0] != sep by { assert x[0] in x; }
      SplitPieceThenRest(y, rest, sep);
      SplitPrepend(x[0], y + [sep] + rest, sep);
      assert [x[0]] + y == x;
    }
  }

  lemma {:induction false} SplitNoSep(x: string, sep: char)
    requires sep !in x
    ensures Split(x, sep) == [x]
    decreases |x|
  {
    if |x| > 0 {
      assert x[0] != sep by { assert x[0] in x; }
      assert sep !in x[1..] by {
        forall i | 0 <= i < |x[1..]| ensures x[1..][i] != sep {
          assert x[1..][i] == x[i + 1];
        }
      }
      SplitNoSep(x[1..], sep);
      SplitPrepend(x[0], x[1..], sep);
      assert [x[0]] + x[1..] == x;
    }
  }

  /** Splitting a join of separator-free pieces gives the pieces back. */
  lemma {:induction false} SplitJoin(xs: seq<string>, sep: char)
    requires |xs| > 0
    requires forall i :: 0 <= i < |xs| ==> sep !in xs[i]
    ensures Split(Join(xs, sep), sep) == xs
    decreases |xs|
  {
    if |xs| == 1 {
      SplitNoSep(xs[0], sep);
    } else {
      SplitJoin(xs[1..], sep);
      SplitPieceThenRest(xs[0], Join(xs[1..], sep), sep);
      assert xs == [xs[0]] + xs[1..];
    }
  }

  // ---------------------------------------------------------------------------
  // html.escape and the `<br>` display

  /** `html.escape(c)` for one character (quote=True). Python replaces "&"
      first, so escaping string-wise and character-wise agree. */
  function EscapeChar(c: char): string
  {
    if c == '&' then "&amp;"
    else if c == '<' then "&lt;"
    else if c == '>' then "&gt;"
    else if c == '"' then "&quot;"
    else if c == '\'' then "&#x27;"
    else [c]
  }

  /** `html.escape(s)`. */
  function HtmlEscape(s: string): string
    decreases |s|
  {
    if |s| == 0 then "" else EscapeChar(s[0]) + HtmlEscape(s[1..])
  }

  /** `html.escape(s).replace("\n", "<br>")`, how query results and the patch
      log are put on a page. */
  function Display(s: string): string
  {
    Replace(HtmlEscape(s), "\n", "<br>")
  }

  /** What one original character becomes on the page. */
  function DisplayChar(c: char): string
  {
    if c == '\n' then "<br>" else EscapeChar(c)
  }

  function DisplayChars(s: string): string
    decreases |s|
  {
    if |s| == 0 then "" else DisplayChar(s[0]) + DisplayChars(s[1..])
  }

  /** The escape-then-replace pipeline works character by character. */
  lemma {:induction false} DisplayIsCharwise(s: string)
    ensures Display(s) == DisplayChars(s)
    decreases |s|
  {
    if |s| > 0 {
      var e := EscapeChar(s[0]);
      assert HtmlEscape(s) == e + HtmlEscape(s[1..]);
      ReplaceCharConcat(e, HtmlEscape(s[1..]), "\n", "<br>");
      DisplayIsCharwise(s[1..]);
      DisplayOneChar(s[0]);
    }
  }

  /** One character escaped, then its newline replaced, is its page form. */
  lemma DisplayOneChar(c: char)
    ensures Replace(EscapeChar(c), "\n", "<br>") == DisplayChar(c)
  {
    var e := EscapeChar(c);
    if c == '\n' {
      assert e == "\n";
      assert Replace(e, "\n", "<br>") == "<br>" + Replace("", "\n", "<br>");
    } else {
      assert '\n' !in e;
      NoCharNotContained(e, '\n');
      ReplaceAbsent(e, "\n", "<br>");
    }
  }

  lemma {:induction false} NoCharNotContained(s: string, c: char)
    requires c !in s
    ensures !Contains(s, [c])
    decreases |s|
  {
    if |s| > 0 {
      NotStartsWithAt(s, [c], 0);
      assert c !in s[1..] by {
        forall i | 0 <= i < |s[1..]| ensures s[1..][i] != c {
          assert s[1..][i] == s[i + 1];
        }
      }
      NoCharNotContained(s[1..], c);
    }
  }

  /** Reads a displayed text back: entities and `<br>` become the characters
      they stand for, anything else is copied. */
  function Undisplay(s: string): string
    decreases |s|
  {
    if |s| == 0 then ""
    else if StartsWith(s, "&amp;") then "&" + Undisplay(s[5..])
    else if StartsWith(s, "&lt;") then "<" + Undisplay(s[4..])
    else if StartsWith(s, "&gt;") then ">" + Undisplay(s[4..])
    else if StartsWith(s, "&quot;") then "\"" + Undisplay(s[6..])
    else if StartsWith(s, "&#x27;") then "'" + Undisplay(s[6..])
    else if StartsWith(s, "<br>") then "\n" + Undisplay(s[4..])
    else [s[0]] + Undisplay(s[1..])
  }

  /** A string that differs from p at position i does not start with p. */
  lemma NotStartsWithAt(s: string, p: string, i: nat)
    requires i < |p| && i < |s| && s[i] != p[i]
    ensures !StartsWith(s, p)
  {
    if |p| <= |s| {
      assert s[..|p|][i] == s[i];
    }
  }

  lemma UndisplayEntity(c: char, t: string)
    requires c in "&<>\"'"
    ensures Undisplay(DisplayChar(c) + t) == [c] + Undisplay(t)
  {
    var d := DisplayChar(c);
    var s := d + t;
    assert s[..|d|] == d;
    assert s[|d|..] == t;
    if c != '&' {
      NotStartsWithAt(s, "&amp;", 1);
      if c != '<' {
        NotStartsWithAt(s, "&lt;", 1);
        if c != '>' {
          NotStartsWithAt(s, "&gt;", 1);
          if c != '"' {
            NotStartsWithAt(s, "&quot;", 1);
          }
        }
      }
    }
  }

  lemma UndisplayNewline(t: string)
    ensures Undisplay(DisplayChar('\n') + t) == "\n" + Undisplay(t)
  {
    var s := "<br>" + t;
    assert s[..4] == "<br>";
    assert s[4..] == t;
    NotStartsWithAt(s, "&amp;", 0);
    NotStartsWithAt(s, "&lt;", 0);
    NotStartsWithAt(s, "&gt;", 0);
    NotStartsWithAt(s, "&quot;", 0);
    NotStartsWithAt(s, "&#x27;", 0);
  }

  lemma UndisplayPlain(c: char, t: string)
    requires c !in "&<>\"'\n"
    ensures Undisplay(DisplayChar(c) + t) == [c] + Undisplay(t)
  {
    var s := [c] + t;
    assert DisplayChar(c) == [c];
    assert s[1..] == t;
    NotStartsWithAt(s, "&amp;", 0);
    NotStartsWithAt(s, "&lt;", 0);
    NotStartsWithAt(s, "&gt;", 0);
    NotStartsWithAt(s, "&quot;", 0);
    NotStartsWithAt(s, "&#x27;", 0);
    NotStartsWithAt(s, "<br>", 0);
  }

  lemma UndisplayOne(c: char, t: string)
    ensures Undisplay(DisplayChar(c) + t) == [c] + Undisplay(t)
  {
    if c in "&<>\"'" {
      UndisplayEntity(c, t);
    } else if c == '\n' {
      UndisplayNewline(t);
    } else {
      UndisplayPlain(c, t);
    }
  }

  /** The display loses nothing: the original text can be read back from it. */
  lemma {:induction false} DisplayRoundTrip(s: string)
    ensures Undisplay(Display(s)) == s
    decreases |s|
  {
    DisplayIsCharwise(s);
    DisplayCharsRoundTrip(s);
  }

  lemma {:induction false} DisplayCharsRoundTrip(s: string)
    ensures Undisplay(DisplayChars(s)) == s
    decreases |s|
  {
    if |s| > 0 {
      UndisplayOne(s[0], DisplayChars(s[1..]));
      DisplayCharsRoundTrip(s[1..]);
      assert s == [s[0]] + s[1..];
    }
  }

  /** What can appear on the page: no newline, no quote or apostrophe, and
      every '<' or '>' belongs to a `<br>` that stands for a newline. */
  ghost predicate SafeForPage(d: string)
  {
    && (forall i :: 0 <= i < |d| ==> d[i] != '\n' && d[i] != '"' && d[i] != '\'')
    && (forall i :: 0 <= i < |d| && d[i] == '<' ==> i + 4 <= |d| && d[i..i + 4] == "<br>")
    && (forall i :: 0 <= i < |d| && d[i] == '>' ==> i >= 3 && d[i - 3..i + 1] == "<br>")
  }

  lemma SafeConcat(a: string, b: string)
    requires SafeForPage(a) && SafeForPage(b)
    ensures SafeForPage(a + b)
  {
    var d := a + b;
    forall i | 0 <= i < |d| && d[i] == '<'
      ensures i + 4 <= |d| && d[i..i + 4] == "<br>"
    {
      if i < |a| {
        assert a[i] == '<';
        assert d[i..i + 4] == a[i..i + 4];
      } else {
        assert b[i - |a|] == '<';
        assert d[i..i + 4] == b[i - |a|..i - |a| + 4];
      }
    }
    forall i | 0 <= i < |d| && d[i] == '>'
      ensures i >= 3 && d[i - 3..i + 1] == "<br>"
    {
      if i < |a| {
        assert a[i] == '>';
        assert d[i - 3..i + 1] == a[i - 3..i + 1];
      } else {
        assert b[i - |a|] == '>';
        assert d[i - 3..i + 1] == b[i - |a| - 3..i - |a| + 1];
      }
    }
  }

  /** Text without newlines, quotes or angle brackets is safe as it is. */
  lemma SafePlain(d: string)
    requires forall i :: 0 <= i < |d| ==> d[i] !in "\n\"'<>"
    ensures SafeForPage(d)
  {
    forall i | 0 <= i < |d|
      ensures d[i] != '\n' && d[i] != '"' && d[i] != '\'' && d[i] != '<' && d[i] != '>'
    {
      assert d[i] !in "\n\"'<>";
    }
  }

  lemma SafeDisplayChar(c: char)
    ensures SafeForPage(DisplayChar(c))
  {
    var d := DisplayChar(c);
    if c == '\n' {
      assert d == "<br>";
      assert d[0..4] == "<br>";
    } else if c == '&' || c == '<' || c == '>' || c == '"' || c == '\'' {
      SafePlain(d);
    } else {
      assert d == [c];
      SafePlain(d);
    }
  }

  /** Every displayed text is safe for the page. */
  lemma {:induction false} DisplaySafe(s: string)
    ensures SafeForPage(Display(s))
    decreases |s|
  {
    DisplayIsCharwise(s);
    DisplayCharsSafe(s);
  }

  lemma {:induction false} DisplayCharsSafe(s: string)
    ensures SafeForPage(DisplayChars(s))
    decreases |s|
  {
    if |s| > 0 {
      SafeDisplayChar(s[0]);
      DisplayCharsSafe(s[1..]);
      SafeConcat(DisplayChar(s[0]), DisplayChars(s[1..]));
    }
  }

  // ---------------------------------------------------------------------------
  // str(int)

  function DigitChar(d: nat): (c: char)
    requires d < 10
    ensures IsDigit(c) && DigitValue(c) == d
  {
    ('0' as int + d) as char
  }

  /** The value of one decimal digit; other characters never reach it from
      ParseInt, which rejects them first. */
  function DigitValue(c: char): nat
  {
    if '0' <= c <= '9' then (c as int - '0' as int) as nat else 0
  }

  predicate IsDigit(c: char)
  {
    '0' <= c <= '9'
  }

  /** How `str` writes a natural number: digits only, at least one, and no
      leading zero unless the number is 0. */
  predicate Canonical(s: string)
  {
    && |s| > 0
    && (forall i :: 0 <= i < |s| ==> IsDigit(s[i]))
    && (s[0] == '0' ==> |s| == 1)
  }

  /** The decimal digits of n, most significant first, without leading zeros. */
  function NatToDecimal(n: nat): (r: string)
    ensures Canonical(r)
    ensures r[0] == '0' ==> n == 0
    decreases n
  {
    if n < 10 then [DigitChar(n)] else NatToDecimal(n / 10) + [DigitChar(n % 10)]
  }

  /** `str(n)` for an int, as an f-string renders it. */
  function IntToDecimal(n: int): string
  {
    if n < 0 then "-" + NatToDecimal(-n) else NatToDecimal(n)
  }

  /** The value of a string of decimal digits. */
  function DecimalValue(s: string): nat
    decreases |s|
  {
    if |s| == 0 then 0 else DecimalValue(s[..|s| - 1]) * 10 + DigitValue(s[|s| - 1])
  }

  /** A natural number's decimal text read back; anything `str` would not
      have written is not one. */
  function ParseNat(s: string): Option<nat>
  {
    if Canonical(s) then Some(DecimalValue(s)) else None
  }

  /** An int's decimal text read back: an optional minus sign before the
      digits of a non-zero magnitude. Anything `str` would not have written
      ("", "x7", "07", "-0", "--1") is not one. */
  function ParseInt(s: string): Option<int>
  {
    if |s| > 0 && s[0] == '-' then
      match ParseNat(s[1..])
      case Some(m) => if m == 0 then None else Some(-(m as int))
      case None => None
    else
      match ParseNat(s)
      case Some(m) => Some(m as int)
      case None => None
  }

  lemma {:induction false} NatDecimalRoundTrip(n: nat)
    ensures DecimalValue(NatToDecimal(n)) == n
    decreases n
  {
    if n >= 10 {
      var r := NatToDecimal(n);
      NatDecimalRoundTrip(n / 10);
      assert r[..|r| - 1] == NatToDecimal(n / 10);
      assert r[|r| - 1] == DigitChar(n % 10);
    }
  }

  /** Digits without a leading zero have a positive value. */
  lemma {:induction false} LeadingDigitPositive(s: string)
    requires |s| > 0 && s[0] != '0'
    requires forall i :: 0 <= i < |s| ==> IsDigit(s[i])
    ensures DecimalValue(s) > 0
    decreases |s|
  {
    if |s| > 1 {
      LeadingDigitPositive(s[..|s| - 1]);
    }
  }

  /** Canonical text is exactly what NatToDecimal writes for its value. */
  lemma {:induction false} CanonicalRoundTrip(s: string)
    requires Canonical(s)
    ensures NatToDecimal(DecimalValue(s)) == s
    decreases |s|
  {
    var c := s[|s| - 1];
    var d := DigitValue(c);
    assert IsDigit(c);
    assert DigitChar(d) == c;
    if |s| == 1 {
      assert DecimalValue(s) == d by {
        assert s[..0] == [];
      }
    } else {
      var p := s[..|s| - 1];
      assert p[0] == s[0];
      LeadingDigitPositive(p);
      CanonicalRoundTrip(p);
      var v := DecimalValue(s);
      assert v == DecimalValue(p) * 10 + d;
      assert v / 10 == DecimalValue(p) && v % 10 == d;
      assert NatToDecimal(v) == NatToDecimal(v / 10) + [DigitChar(v % 10)];
      assert s == p + [c];
    }
  }

  /** `str(n)` is one-to-one: the number is recovered from its text. */
  lemma IntDecimalRoundTrip(n: int)
    ensures ParseInt(IntToDecimal(n)) == Some(n)
  {
    var m: nat := if n < 0 then -n else n;
    var r := NatToDecimal(m);
    NatDecimalRoundTrip(m);
    if n < 0 {
      ParseSigned(r);
      calc {
        ParseInt(IntToDecimal(n));
        ParseInt("-" + r);
        Some(-(DecimalValue(r) as int));
      }
    } else {
      ParseUnsigned(r);
      calc {
        ParseInt(IntToDecimal(n));
        ParseInt(r);
        Some(DecimalValue(r) as int);
      }
    }
  }

  /** ParseInt accepts nothing but `str`'s own output: whatever it reads is
      the text of the number it returns. */
  lemma IntDecimalUnique(t: string)
    ensures ParseInt(t).Some? ==> t == IntToDecimal(ParseInt(t).value)
  {
    if |t| > 0 && t[0] == '-' {
      var u := t[1..];
      if Canonical(u) && DecimalValue(u) != 0 {
        CanonicalRoundTrip(u);
        assert t == "-" + u;
      }
    } else if Canonical(t) {
      CanonicalRoundTrip(t);
    }
  }

  lemma ParseSigned(r: string)
    requires Canonical(r) && DecimalValue(r) != 0
    ensures ParseInt("-" + r) == Some(-(DecimalValue(r) as int))
  {
    assert ("-" + r)[1..] == r;
  }

  lemma ParseUnsigned(r: string)
    requires Canonical(r)
    ensures ParseInt(r) == Some(DecimalValue(r) as int)
  {
  }
}

=== FILE: web.dfy ===
/** What a FastAPI handler hands back to the client. */
module Web {
  import opened Py

  /** A JSON document as FastAPI serialises it. */
  datatype Json =
    | JNull
    | JStr(s: string)
    | JObj(fields: seq<(string, Json)>)

  /** The reply of a handler whose rendered page or returned value is of type V. */
  datatype Reply<V> =
    | Redirect(status: nat, location: string)
    | Html(status: nat, content: string)
    | JsonReply(status: nat, json: Json)
    | Render(template: string, view: V)   // a Jinja2 template rendered with 200
    | Data(value: V)                      // a plain value, serialised with 200
    | Raised(exc: Exc)                    // an exception escapes; the server answers 500

  /** RedirectResponse's default status. */
  const TEMPORARY_REDIRECT: nat := 307
  const FOUND: nat := 302

  /** The status code the client sees. */
  function Status<V>(r: Reply<V>): nat
  {
    match r
    case Redirect(s, _) => s
    case Html(s, _) => s
    case JsonReply(s, _) => s
    case Render(_, _) => 200
    case Data(_) => 200
    case Raised(_) => 500
  }

  /** `{"error": message}` */
  function ErrorJson(message: Json): Json
  {
    JObj([("error", message)])
  }

  /** Optional strings become JSON strings or null. */
  function OptJson(o: Option<string>): Json
  {
    match o
    case None => JNull
    case Some(s) => JStr(s)
  }
}
